=== FILE: README.md ===
# Openspace Organiser seating engine in Dafny

This project models the seating engine of the Openspace Organiser: the
`Seat`/`Table` containers (src/table.py), the `OpenSpace` organiser that
turns "with" and "without" preferences into clusters and seats them
(src/openspace.py), and the `SeatingSnapshot` adaptor that turns a seating
into export rows (src/snapshot.py). Everything is an immutable value: a
table is a name, a capacity and a sequence of seats; an organiser is an
`OpenSpace` datatype; the preference dicts are association lists in
insertion order; the "with" graph is a `map<string, set<string>>` read with
an empty default, as the source's `defaultdict(set)` is.

The pipeline of `organise`, and where it lives:

- step 0, clearing the tables unless `persistent`: `Engine.ResetTables`;
- steps 1–3, the two-way "with" graph, the edges "without" removes, and the
  breadth-first clusters in roster order: `Graph` and `Engine.FindClusters`;
- step 5, each cluster whole into the first table with room, largest first,
  else into a new table "Table n+1": `Placement.PlaceClusters` after
  `Sorting.SortBy`;
- step 6, everyone not yet seated in a shuffled order, each at the first
  table with an empty seat and no one they exclude: `Placement.SeatIndividuals`;
- step 7, the balancing pass: `Balancer.SoftBalance`;
- step 8, the seating records: `Engine.RefreshSeating`.

The model follows the code where it departs from the module's own
description:

- Every roster name is in a cluster, singletons included, so step 5 seats
  everyone and step 6 usually has nobody left; the "without" check of step 6
  is never applied to them.
- With `persistent` set, people already seated are seated again.
- Any move the balancing pass attempts raises, because it reads
  `dest_table.name` and a `Table` only has `table_name`. The pass therefore
  either leaves the tables as they are or fails (`MissingNameAttribute`).
  The move it would have made is modelled on its own (`Balancer.MoveOccupant`).
- The pass's "one extra seat" allowance is used up only by over-full tables.
- A cluster larger than a new table loses the members beyond its capacity,
  since the `False` of `assign_seat` is ignored.

Exceptions become `Result` failures:

- the `KeyError` of `_apply_without_constraints` is `GraphKeyError`. It is
  raised when someone is their own "with" neighbour and also excludes
  themself;
- the `ZeroDivisionError` of the balancing pass with no tables is `NoTables`;
- the balancing pass's `AttributeError` is `MissingNameAttribute`;
- the `ValueError` of `_table_id` is `InvalidTableName`.

## Model

| member | source | states |
|---|---|---|
| Tables.NewTable | src/table.py:15-26 | without explicit seats a table has `capacity` seats (none for a negative capacity), all empty and free, so its free count is that number; explicit seats are kept as given |
| Tables.HasFreeSpot | src/table.py:28-30 | true exactly when the free-seat count is positive |
| Tables.CountFree | src/table.py:49-51 | the free count is at most the seat count, zero exactly when no seat is free, the seat count exactly when all are |
| Tables.AssignSeat | src/table.py:32-47 | succeeds exactly when a seat is free; then the first free seat holds the name and is taken and no other seat changes, and the free count drops by one; otherwise the table is unchanged; non-empty names keep "free iff empty" |
| Tables.AssignSeatTakes | src/table.py:42-46 | a successful assignment adds exactly the name to the taken seats' occupants |
| Tables.AssignSeatKeepsSeatsAndLowersLeft | src/table.py:42-51 | on a consistent table with room, a non-empty name raises occupancy by one and lowers free seats by one, seat count unchanged |
| Tables.ClearAssignments | src/table.py:61-65 | every seat empty and free, seat count, name and capacity unchanged, free count equals the seat count |
| Tables.Occupants | src/table.py:53-55 | one entry per seat, the seat's occupant, so an empty seat contributes "" |
| Tables.AssignedOf | src/openspace.py:65 | the names listed are exactly the non-empty occupants |
| Tables.OccupancyPlusLeft | src/table.py:49-55 | when "free iff empty" holds, named seats plus free seats make up all seats |
| Prefs.Lookup | src/openspace.py:95-96 | `get(person, [])`: the list of the entry for the person, or empty when there is none |
| Prefs.Pairs | src/openspace.py:132-133 | the visited (person, listed) pairs are exactly those some entry lists |
| Graph.AddEdge | src/openspace.py:119-120 | adds b to a's neighbours and a to b's, nothing else |
| Graph.AddEdges | src/openspace.py:117-120 | b is adjacent to a exactly when it was before or the pair occurs in either orientation |
| Graph.BuildWithGraph | src/openspace.py:109-122 | b is adjacent to a exactly when a lists b or b lists a under "with"; the graph is symmetric |
| Graph.RecordedOnce | src/openspace.py:130-139 | each recorded pair was visited and was an edge, and no pair is recorded twice in either orientation |
| Graph.RemovePair | src/openspace.py:134-136 | removing an edge fails (the second `remove`) exactly when it is a self-loop or lacks its reverse; otherwise only those two entries go |
| Graph.PruneStep | src/openspace.py:134-137 | a pair that is not an edge leaves graph and list alone; an edge is recorded at the end of the list |
| Graph.PruneStepKeeps | src/openspace.py:132-137 | one visited pair keeps "the graph is the original minus the visited pairs, and the list is the reference list" |
| Graph.PrunedAll | src/openspace.py:132-137 | after all pairs: symmetric, and b is adjacent to a exactly when it was and neither excludes the other |
| Graph.RemovePairs | src/openspace.py:132-139 | on a symmetric graph, failure means a self-excluding self-loop, and success gives the pruned graph and the reference list |
| Graph.ApplyWithoutConstraints | src/openspace.py:124-139 | on a symmetric graph: fails with the key error exactly when someone excludes themself and is their own neighbour; otherwise the result is symmetric, keeps exactly the edges neither end excludes, and the removed list is the reference list |
| Graph.Explore | src/openspace.py:151-163 | the component starts at the person, has no repeats, avoids visited names, is connected, and every neighbour of a member is visited or a member |
| Graph.VisitNeighbours | src/openspace.py:156-161 | appends only unvisited, new neighbours of the node, and afterwards all its neighbours are visited or members |
| Graph.ComponentsStep | src/openspace.py:149-163 | adding the next component keeps the components a partition, searched up to the next roster name |
| Graph.ConnectedComponents | src/openspace.py:141-165 | components are non-empty, pairwise disjoint, repeat-free and connected, each starts with the first roster name not yet visited, every roster name is in one, members are roster names or graph nodes, and on a symmetric graph each is closed under adjacency |
| Sorting.SortBy | src/openspace.py:311 | `sorted` by a key: same length, keys non-decreasing, a permutation, and each key class keeps its order (stable) |
| Placement.AnyForbidden | src/openspace.py:99-103 | true exactly when some non-empty occupant is in the forbidden list |
| Placement.ViolatesWithout | src/openspace.py:88-103 | true exactly when a non-empty occupant is on the person's "without" list |
| Placement.OnlyFreeOccupants | src/openspace.py:205-213 | true exactly when every occupant is empty or a free person |
| Placement.FindTableForPerson | src/openspace.py:189-217 | the first table, in list order, with an empty seat, no excluded occupant and (when asked) only free occupants; none when no table qualifies |
| Placement.AssignAllFills | src/openspace.py:316-317 | seating a list fills min(list length, free seats) seats with the list's first names and lowers the free count by as much |
| Placement.AssignAllConsistent | src/openspace.py:316-317 | seating non-empty names keeps "free iff empty" |
| Placement.FirstFit | src/openspace.py:314-319 | the first table with at least as many free seats as the cluster, or none when no table has |
| Placement.PlaceCluster | src/openspace.py:312-328 | tables only grow: old tables keep their taken seats, at most one new table, named "Table n+1" with the configured capacity |
| Placement.PlaceClusterFirstFit | src/openspace.py:314-319 | with a fitting table, the whole cluster joins the first such table and no other table changes |
| Placement.PlaceClusterNewTable | src/openspace.py:320-328 | with no fitting table, one table is appended holding the cluster's first `capacity` members, the others lost |
| Placement.PlaceClusterConsistent | src/openspace.py:312-328 | placing non-empty names keeps every table "free iff empty" |
| Placement.PlaceClusterSeatsAll | src/openspace.py:320-328 | a cluster no larger than a new table is seated in full |
| Placement.PlaceClusters | src/openspace.py:311-328 | placing all clusters only grows the tables and keeps them consistent |
| Placement.PlaceClustersSeats | src/openspace.py:312-328 | everyone seated before, and every member of a cluster that fits a new table, is seated after |
| Placement.SeatOne | src/openspace.py:337-347 | when a table is found, the table count is kept, that table holds the person (when it was "free iff empty") and every other table is unchanged; when none is found, the old tables are kept and an appended table holds the person under positive capacity; tables only grow and stay consistent |
| Placement.SeatInto | src/openspace.py:338-339 | seating at table i, which has an empty seat, leaves every other table unchanged, puts the person at table i when it is "free iff empty", and only grows the tables |
| Placement.SeatAtEnd | src/openspace.py:340-347 | a new table "Table n+1" is appended after the unchanged old ones and, under positive capacity, holds the person |
| Placement.SeatAtFreeSpot | src/openspace.py:337-339 | on a consistent table with an empty seat, `assign_seat` succeeds and the person is seated |
| Placement.SeatAtNewTable | src/openspace.py:345-346 | a fresh table with at least one seat seats the person |
| Placement.SeatIndividuals | src/openspace.py:336-347 | tables only grow and stay consistent, and with positive capacity everyone in the order, and everyone seated before, is seated after |
| Balancer.Movable | src/openspace.py:262 | exactly the table's non-empty occupants who are free persons |
| Balancer.MovableOf | src/openspace.py:229-239 | a name is listed exactly when it is non-empty, free and sits on one of the seats |
| Balancer.Candidates | src/openspace.py:257-263 | nobody from a table within its allowance; from an over-full one, a prefix of the movable occupants of length min(excess, number movable), each a non-empty free person seated there |
| Balancer.FirstMover | src/openspace.py:263-265 | a candidate for whom a destination exists and before whom no candidate has one; none exactly when no candidate has one |
| Balancer.FirstMove | src/openspace.py:256-280 | a found move is a movable person at an over-full table from the given one on, and has a destination; none when no movable person there has a destination |
| Balancer.ScanFirstIsFirst | src/openspace.py:256-280 | a left-to-right scan that carries a running counter finds the first position whose offer succeeds under the counter all earlier positions left, and finds nothing exactly when no position's offer succeeds |
| Balancer.FirstMoveIsScan | src/openspace.py:256-280 | the balancing loop is that scan over the tables, each offering its first candidate with a destination under the allowance `target + (1 if extra > 0)`, and `extra` dropping by one after each over-full table while positive |
| Balancer.FirstMoveIsFirst | src/openspace.py:256-280 | the move found is at the first table whose candidates, under the running allowance, include someone with a destination; no earlier table has one; none is found exactly when no table has one |
| Balancer.SoftBalanceFailsExactly | src/openspace.py:241-280 | with at least one table, the pass fails exactly when some table, under the allowance the tables before it left, has a candidate with a destination |
| Balancer.SoftBalance | src/openspace.py:219-280 | with at least one table: success leaves the tables unchanged; failure is the attribute error and happens only when some movable person has a destination; when none has, it succeeds |
| Balancer.FirstMoveWithinAllowance | src/openspace.py:256-280 | when every remaining table is within its allowance no move is attempted |
| Balancer.SoftBalanceKeepsBalanced | src/openspace.py:241-259 | tables already within the average plus one are left as they are |
| Balancer.Vacate | src/openspace.py:268-272 | a table without the person is unchanged; name, capacity and seat count are kept |
| Balancer.TakenVacate | src/openspace.py:268-272 | emptying a taken seat removes exactly its occupant from the taken names |
| Balancer.VacateRemoves | src/openspace.py:268-272 | vacating a seated person removes them once from all tables and leaves a free seat |
| Balancer.AssignAdds | src/openspace.py:274-278 | filling a free seat adds the person once to all tables |
| Balancer.MoveOccupant | src/openspace.py:266-278 | a move touches only the source and destination tables and keeps every table's name, capacity and seat count |
| Balancer.MoveKeepsSeated | src/openspace.py:266-278 | a move keeps the multiset of seated names |
| Balancer.MoveKeepsConsistent | src/openspace.py:266-278 | a move keeps every table "free iff empty" |
| Engine.ResetTables | src/openspace.py:72-77 | same tables with the same names, capacities and seat counts, every seat empty and free, nobody seated |
| Engine.SeenStep | src/openspace.py:68-70 | visiting a seat records its non-empty occupant at that seat, keeping "the last seat seen" for everyone |
| Engine.SeenNextTable | src/openspace.py:64-70 | finishing a table's seats is the same as starting the next table |
| Engine.RefreshSeating | src/openspace.py:56-70 | one record per table with its name and non-empty occupants in seat order; the seat map holds exactly the non-empty occupants, each at the last seat holding them |
| Engine.OccupantSet | src/openspace.py:331 | exactly the names on some seat |
| Engine.Remaining | src/openspace.py:332 | exactly the roster names not seated |
| Engine.FindClusters | src/openspace.py:298-305 | fails with the key error exactly when someone lists themself under both "with" and "without"; otherwise the removed list is the reference list and the clusters are disjoint, cover the roster, start on roster names, hold only roster or "with" names, and are the components of "one lists the other under with, neither excludes the other": each is connected and closed under that relation, without repeats, and starts at the first roster name no earlier cluster holds |
| Engine.ComponentsLinked | src/openspace.py:109-165 | components of the "with" graph pruned by "without" are connected and closed under "one lists the other under with and neither lists the other under without", and keep their roster-order starts |
| Engine.Clusters | src/openspace.py:141-165 | on the pruned graph, the clusters have every property `Engine.FindClusters` promises |
| Engine.ClusterMembersNamed | src/openspace.py:149-161 | a cluster member is a roster name or named in a "with" entry |
| Engine.ClustersStartOnRoster | src/openspace.py:149-153 | each cluster starts with a roster name, so an empty roster gives no clusters |
| Engine.RemainingSeated | src/openspace.py:330-347 | with positive capacity, no "" on the roster and "free iff empty" tables after step 5, seating the remaining names in any order of them seats every roster name |
| Engine.LargestFirst | src/openspace.py:311 | the step-5 order holds the same clusters, larger ones first, and clusters of equal size keep their order |
| Engine.SeatRoster | src/openspace.py:310-347 | the result equals `Engine.Seating`, the definition of steps 5 and 6: the step-5 placement (the clusters largest first, each whole by first fit or in a new table) followed by seating the unseated roster names one by one in the shuffled order; the tables only grow, are empty exactly when there were none and nobody to seat, and hold the whole roster under positive capacity and non-empty names |
| Engine.BalanceAndRecord | src/openspace.py:349-357 | fails exactly when the balancing pass fails, and then with the attribute error; on success the tables are kept, the records match them and the run report is stored |
| Engine.Arrange | src/openspace.py:310-357 | returns the seating after step 6 (the step-5 and step-6 placement of the given clusters); the no-tables error happens exactly when that seating is empty, which is exactly when there were no tables and nobody to seat; otherwise it fails exactly when the balancing pass fails on that seating; on success the tables are that seating and the records match, and under positive capacity, no "" among the roster and cluster names and "free iff empty" starting tables everyone is seated |
| Engine.Organise | src/openspace.py:282-357 | fails with the key error exactly when someone excludes themself and lists themself under "with"; with no tables and no roster, the no-tables error; otherwise it returns the clusters of step 3 (with every property `Engine.FindClusters` promises) and the seating after steps 5 and 6 of those clusters from the reset (or kept) tables, and fails exactly when the balancing pass fails on that seating; on success the tables are that seating and the report holds those clusters; on success the tables grew from the reset (or kept) tables, the removed list is the reference list, the clusters cover the roster and are the components of the pruned "with" relation in roster order, the records match the tables, and under positive capacity and non-empty names everyone is seated |
| Strings.RunLength | src/snapshot.py:74 | a prefix with no whitespace, ended by whitespace or the end |
| Strings.Words | src/snapshot.py:74 | `split()`: non-empty words without whitespace |
| Strings.WordsEmpty | src/snapshot.py:74 | `split()` gives no words exactly when the text is all whitespace, the case where `[-1]` raises |
| Strings.WordsSplit | src/snapshot.py:74 | splitting at a whitespace character splits the words: the words of `a + [c] + b` are those of `a` followed by those of `b` |
| Strings.WordsOfUnwords | src/snapshot.py:74 | splitting words joined by single spaces gives the words back |
| Strings.ParseInt | src/snapshot.py:74 | `int()` succeeds exactly on an optional sign followed by one to 4300 digits (the default `sys.get_int_max_str_digits()` limit); the value is the digits' decimal value, negated after "-" |
| Strings.NatToString | src/openspace.py:322 | the decimal digits of a number: non-empty, digits only, with that value |
| Strings.ParseIntOfNatToString | src/openspace.py:322 | parsing a printed number of at most 4300 digits, bare or signed, gives it back |
| Strings.Join | src/snapshot.py:51-52 | `", ".join`: the parts in order with the separator between them |
| Strings.JoinSnoc | src/snapshot.py:51-52 | joining one more part appends the separator and that part |
| Strings.JoinIsUnwords | src/snapshot.py:51-52 | joining with one space is joining words by single spaces, so `split()` undoes it |
| Snapshot.TableId | src/snapshot.py:70-76 | fails, naming the table, exactly when the name has no word or its last word is not an integer literal of at most 4300 digits; otherwise the name has a last word and the id is that word's integer value |
| Snapshot.TableIdOfWords | src/snapshot.py:70-76 | a name made of words and then an integer literal, joined by single spaces, has that integer as id ("Room 12" is 12, "T -3" is -3) |
| Snapshot.TableIdOfTableName | src/snapshot.py:74 | a table named "Table n", as `organise` names new tables, has id n when n has at most 4300 digits |
| Snapshot.TablesSorted | src/snapshot.py:63-68 | fails exactly when some id fails, with the first failing table's error; otherwise a permutation in non-decreasing id, stable for equal ids |
| Snapshot.Stamp | src/snapshot.py:88-89 | the listed names map to the index and the other entries are kept |
| Snapshot.ClusterMapOf | src/snapshot.py:87-89 | every number is a cluster index counted from 1 |
| Snapshot.ClusterMapOfEntry | src/snapshot.py:87-89 | a name has a number exactly when a cluster holds it, and the number is that of the last cluster holding it |
| Snapshot.ClusterMapOfDisjoint | src/snapshot.py:87-89 | with disjoint clusters each member's number is its own cluster's |
| Snapshot.BuildClusterMap | src/snapshot.py:78-91 | empty before any `organise`; otherwise the names mapped are exactly the members of the last run's clusters, each to the 1-based index of the last cluster holding it |
| Snapshot.ClusterCellOf | src/snapshot.py:53 | the cluster cell of a name is empty exactly when there was no run or no cluster holds the name; otherwise it is the 1-based index of the last cluster holding the name |
| Snapshot.RowClusterCell | src/snapshot.py:36-53 | every row's cluster cell is its name's cell, as `Snapshot.ClusterCellOf` describes it |
| Snapshot.TableRows | src/snapshot.py:43-54 | one row per non-empty seat in seat order, with the table's id and the name's columns |
| Snapshot.RowsOfNames | src/snapshot.py:40-54 | the rows' names are the seated names, table after table |
| Snapshot.RowsOfOrigin | src/snapshot.py:40-54 | every row comes from a table with its id that seats its name, and carries that name's columns |
| Snapshot.Rows | src/snapshot.py:22-56 | fails exactly when some table name does not parse, with that table's error |
| Snapshot.RowsArePermutation | src/snapshot.py:40-56 | the rows name every seated person exactly as often as they are seated |
| Snapshot.RowsOrdered | src/snapshot.py:39-41 | table ids never decrease down the rows |
| Snapshot.RowsAtTheirTables | src/snapshot.py:40-54 | each row's table parses to the row's id and seats its name, and the preference and cluster columns are the name's |

## Left out

- Printing: `_print_broken_groups` (step 4), `print_current_seating` and `display` only write to the console.
- `_current_occupants`, `_lookup_table_by_name` and `Table.seat_names` are not called by the modelled operations.
- `OpenSpace.__init__` and `SeatingSnapshot.__init__` only store their arguments; the `OpenSpace` datatype's constructor stands for them.
- main.py and the utils directory (the interactive menu, config and CSV/TXT files) are not part of this model.
- `random.shuffle` in step 6 is a parameter: any function returning a permutation of its argument.
- Python's iteration order over a neighbour set is a free choice in `Graph.VisitNeighbours`, so a component is any breadth-first order.
- The state an exception leaves half-updated (tables already changed when step 7 raises) is not modelled; a failure returns only the error.
- Preference dicts are association lists whose keys are taken to be distinct, as a dict's are; `Prefs.Lookup` reads the first entry.
- Strings.ParseInt: accepts an optional sign and ASCII digits only; `int()` also allows underscores between digits, surrounding whitespace and non-ASCII digits. The 4300-digit limit is the interpreter's default and is not read from `sys`.
- Strings.NatToString: does not model the same 4300-digit limit on formatting an integer, which a table count never reaches.
- Balancer.SoftBalance: its own contract states a necessary and a sufficient condition for failure; the exact condition, a table with a candidate under the running allowance, is `Balancer.SoftBalanceFailsExactly`.
- Graph.ApplyWithoutConstraints: states the resulting graph only for a symmetric input, which `Graph.BuildWithGraph` always produces.
- Graph.ConnectedComponents: does not state the order of members inside a component beyond the first.
- Engine.Organise: states that everyone is seated only when the capacity is positive, no name is "", and (in persistent mode) the kept tables are "free iff empty"; otherwise cluster members beyond a new table's capacity are lost, as in the source.
- Engine.SeatRoster: states seating completeness under the same conditions as `Engine.Organise`.
- Engine.Arrange: states that everyone is seated only when the capacity is positive, no roster or cluster name is "", and the starting tables are "free iff empty"; with a capacity of 0 every new table has no seat and the run succeeds with nobody seated, as in the source.
- Engine.RemainingSeated: states that the roster ends up seated only under positive capacity, no "" on the roster and "free iff empty" tables, for the same reason.
- Snapshot.Rows: its contents are stated by `Snapshot.RowsArePermutation`, `Snapshot.RowsOrdered` and `Snapshot.RowsAtTheirTables` rather than in its own contract.

=== FILE: balancer.dfy ===
/**
  `_soft_balance_tables` of src/openspace.py. Every move it would make first
  reads `dest_table.name`, which a table does not have, so the pass either
  leaves the tables as they are or stops with an `AttributeError` before
  changing anything. The body of a move is modelled on its own.
 */
module Balancer {
  import opened Results
  import opened Errors
  import opened Tables
  import opened Prefs
  import opened Placement

  /** The occupants the pass may move from `t`: non-empty and free, in seat order. */
  function Movable(t: Table, prefs: Preferences): (r: seq<string>)
    ensures forall p :: p in r <==> p != "" && IsFreePerson(prefs, p) && p in Occupants(t)
  {
    MovableOf(t.seats, prefs)
  }

  function MovableOf(seats: seq<Seat>, prefs: Preferences): (r: seq<string>)
    ensures forall p :: p in r <==>
      p != "" && IsFreePerson(prefs, p) && exists j :: 0 <= j < |seats| && seats[j].occupant == p
  {
    if |seats| == 0 then []
    else
      var rest := MovableOf(seats[1..], prefs);
      assert forall j :: 1 <= j < |seats| ==> seats[j] == seats[1..][j - 1];
      var p := seats[0].occupant;
      (if p != "" && IsFreePerson(prefs, p) then [p] else []) + rest
  }

  /** Number of seats with a non-empty occupant, over all tables. */
  function TotalOccupancy(ts: seq<Table>): nat {
    if |ts| == 0 then 0 else Occupancy(ts[0]) + TotalOccupancy(ts[1..])
  }

  /**
    The people the pass tries to move off table `t` while `allowed` people
    may stay: the first `excess` movable occupants, or nobody if `t` is not
    over-full.
   */
  function Candidates(t: Table, prefs: Preferences, allowed: int): (r: seq<string>)
    ensures Occupancy(t) <= allowed ==> r == []
    ensures Occupancy(t) > allowed ==> |r| == Min(Occupancy(t) - allowed, |Movable(t, prefs)|)
    ensures r <= Movable(t, prefs)
    ensures forall p :: p in r ==> p != "" && IsFreePerson(prefs, p) && p in Occupants(t)
  {
    if Occupancy(t) > allowed then
      var movable := Movable(t, prefs);
      movable[..Min(Occupancy(t) - allowed, |movable|)]
    else []
  }

  /** The first candidate of `cs` for whom a free-only destination exists. */
  function FirstMover(ts: seq<Table>, cs: seq<string>, prefs: Preferences): (r: Option<string>)
    ensures r.Some? ==> r.value in cs && FindTableForPerson(ts, r.value, prefs, true).Some?
    ensures r.Some? ==> (exists k :: 0 <= k < |cs| && cs[k] == r.value
                           && forall j :: 0 <= j < k ==> FindTableForPerson(ts, cs[j], prefs, true).None?)
    ensures r.None? ==> forall k :: 0 <= k < |cs| ==> FindTableForPerson(ts, cs[k], prefs, true).None?
  {
    match FirstWhere(cs, (p: string) => FindTableForPerson(ts, p, prefs, true).Some?)
    case None => None
    case Some(k) => Some(cs[k])
  }

  /** The occupancy a table may keep while `extra` tables may still hold one more than `target`. */
  function Allowance(target: int, extra: int): int
  {
    target + (if extra > 0 then 1 else 0)
  }

  /** `extra` after the loop has looked at table `t`: used up only by an over-full table. */
  function NextExtra(t: Table, target: int, extra: int): int
  {
    if Occupancy(t) > Allowance(target, extra) && extra > 0 then extra - 1 else extra
  }

  /**
    What table `h` offers while `e` tables may still hold one more than
    `target`: the first of its candidates that has a destination.
   */
  function Offer(ts: seq<Table>, prefs: Preferences, target: int): (nat, int) -> Option<string> {
    (h: nat, e: int) =>
      if h < |ts| then FirstMover(ts, Candidates(ts[h], prefs, Allowance(target, e)), prefs) else None
  }

  /** The `extra` counter after the loop has looked at table `h`. */
  function Spend(ts: seq<Table>, target: int): (nat, int) -> int {
    (h: nat, e: int) => if h < |ts| then NextExtra(ts[h], target, e) else e
  }

  /** The counter a scan started at `i` with `e` carries when it reaches `h`. */
  function Running(next: (nat, int) -> int, e: int, i: nat, h: nat): int
    requires i <= h
    decreases h - i
  {
    if h == i then e else Running(next, next(i, e), i + 1, h)
  }

  /**
    A scan of positions `i` up to `n` carrying a counter: the first position
    with an offer, and the offer.
   */
  function ScanFirst<T>(n: nat, offer: (nat, int) -> Option<T>, next: (nat, int) -> int, i: nat, e: int): Option<(nat, T)>
    requires i <= n
    decreases n - i
  {
    if i == n then None
    else
      match offer(i, e)
      case Some(x) => Some((i, x))
      case None => ScanFirst(n, offer, next, i + 1, next(i, e))
  }

  /**
    `ScanFirst` stops at the first position whose offer at the running
    counter is non-empty, and finds nothing exactly when there is none.
   */
  lemma {:induction false} ScanFirstIsFirst<T>(n: nat, offer: (nat, int) -> Option<T>, next: (nat, int) -> int, i: nat, e: int)
    requires i <= n
    ensures var r := ScanFirst(n, offer, next, i, e);
      r.Some? ==> i <= r.value.0 < n && offer(r.value.0, Running(next, e, i, r.value.0)) == Some(r.value.1)
    ensures var r := ScanFirst(n, offer, next, i, e);
      r.Some? ==> forall h :: i <= h < r.value.0 ==> offer(h, Running(next, e, i, h)).None?
    ensures ScanFirst(n, offer, next, i, e).None? <==> forall h :: i <= h < n ==> offer(h, Running(next, e, i, h)).None?
    decreases n - i
  {
    if i < n && offer(i, e).None? {
      var e': int, i': nat := next(i, e), i + 1;
      assert ScanFirst(n, offer, next, i, e) == ScanFirst(n, offer, next, i', e');
      ScanFirstIsFirst(n, offer, next, i', e');
      assert ScanFirst(n, offer, next, i', e').None? <==> forall h :: i' <= h < n ==> offer(h, Running(next, e', i', h)).None?;
      forall h | i' <= h
        ensures Running(next, e, i, h) == Running(next, e', i', h)
      {
      }
      assert Running(next, e, i, i) == e;
      if forall h :: i' <= h < n ==> offer(h, Running(next, e', i', h)).None? {
        forall h | i <= h < n
          ensures offer(h, Running(next, e, i, h)).None?
        {
        }
      } else {
        var h: nat :| i' <= h < n && offer(h, Running(next, e', i', h)).Some?;
        assert offer(h, Running(next, e, i, h)).Some?;
      }
    } else if i < n {
      assert Running(next, e, i, i) == e;
    }
  }

  /**
    The redistribution loop from table `i` on, with `extra` tables still
    allowed one person above `target`. It answers the table and person at
    which the first move would be attempted, or `None` when no move is.
   */
  function FirstMove(ts: seq<Table>, prefs: Preferences, i: nat, target: int, extra: int): (r: Option<(nat, string)>)
    requires i <= |ts|
    ensures r.Some? ==>
      && i <= r.value.0 < |ts|
      && r.value.1 in Movable(ts[r.value.0], prefs)
      && Occupancy(ts[r.value.0]) > target
      && FindTableForPerson(ts, r.value.1, prefs, true).Some?
    ensures (forall h, p :: i <= h < |ts| && p in Movable(ts[h], prefs) ==> FindTableForPerson(ts, p, prefs, true).None?)
      ==> r.None?
    decreases |ts| - i
  {
    if i == |ts| then None
    else
      var cs := Candidates(ts[i], prefs, Allowance(target, extra));
      match FirstMover(ts, cs, prefs)
      case Some(p) =>
        assert p in Movable(ts[i], prefs);
        Some((i, p))
      case None => FirstMove(ts, prefs, i + 1, target, NextExtra(ts[i], target, extra))
  }

  /** `FirstMove` is the scan of the tables by `Offer`, carrying `extra` through `Spend`. */
  lemma {:induction false} FirstMoveIsScan(ts: seq<Table>, prefs: Preferences, i: nat, target: int, extra: int)
    requires i <= |ts|
    ensures FirstMove(ts, prefs, i, target, extra) == ScanFirst(|ts|, Offer(ts, prefs, target), Spend(ts, target), i, extra)
    decreases |ts| - i
  {
    if i < |ts| {
      var here := FirstMover(ts, Candidates(ts[i], prefs, Allowance(target, extra)), prefs);
      var extra' := NextExtra(ts[i], target, extra);
      assert Offer(ts, prefs, target)(i, extra) == here;
      assert Spend(ts, target)(i, extra) == extra';
      if here.None? {
        FirstMoveIsScan(ts, prefs, i + 1, target, extra');
      }
    }
  }

  /**
    The loop's first move happens at the first table, in list order, whose
    candidates at its running allowance include someone with a destination,
    and moves the first such candidate; there is none exactly when no table
    has one.
   */
  lemma FirstMoveIsFirst(ts: seq<Table>, prefs: Preferences, i: nat, target: int, extra: int)
    requires i <= |ts|
    ensures var r, offer, next := FirstMove(ts, prefs, i, target, extra), Offer(ts, prefs, target), Spend(ts, target);
      r.Some? ==> i <= r.value.0 < |ts| && offer(r.value.0, Running(next, extra, i, r.value.0)) == Some(r.value.1)
    ensures var r, offer, next := FirstMove(ts, prefs, i, target, extra), Offer(ts, prefs, target), Spend(ts, target);
      r.Some? ==> forall h :: i <= h < r.value.0 ==> offer(h, Running(next, extra, i, h)).None?
    ensures var offer, next := Offer(ts, prefs, target), Spend(ts, target);
      FirstMove(ts, prefs, i, target, extra).None? <==> forall h :: i <= h < |ts| ==> offer(h, Running(next, extra, i, h)).None?
  {
    FirstMoveIsScan(ts, prefs, i, target, extra);
    ScanFirstIsFirst(|ts|, Offer(ts, prefs, target), Spend(ts, target), i, extra);
  }

  /**
    `_soft_balance_tables`: with `target` the floor of the average occupancy
    and `extra` the remainder, each table above its allowance offers its
    first free occupants; the first one with a destination stops the pass
    with the attribute error. Otherwise the tables are left exactly as they
    were: no table is created and nobody moves.
   */
  function SoftBalance(ts: seq<Table>, prefs: Preferences): (r: Result<seq<Table>, EngineError>)
    requires |ts| > 0
    ensures r.Success? ==> r.value == ts
    ensures r.Failure? ==> r.error == MissingNameAttribute
    ensures r.Failure? ==>
      exists i, p :: 0 <= i < |ts| && p in Movable(ts[i], prefs) && FindTableForPerson(ts, p, prefs, true).Some?
    ensures (forall i, p :: 0 <= i < |ts| && p in Movable(ts[i], prefs) ==> FindTableForPerson(ts, p, prefs, true).None?)
      ==> r.Success?
  {
    var total := TotalOccupancy(ts);
    match FirstMove(ts, prefs, 0, total / |ts|, total % |ts|)
    case None => Success(ts)
    case Some(_) => Failure(MissingNameAttribute)
  }

  /**
    The pass fails exactly when some table, under the allowance the tables
    before it have left, has a candidate with a destination.
   */
  lemma SoftBalanceFailsExactly(ts: seq<Table>, prefs: Preferences)
    requires |ts| > 0
    ensures var total := TotalOccupancy(ts);
      var offer, next := Offer(ts, prefs, total / |ts|), Spend(ts, total / |ts|);
      SoftBalance(ts, prefs).Failure? <==> exists h :: 0 <= h < |ts| && offer(h, Running(next, total % |ts|, 0, h)).Some?
  {
    var total := TotalOccupancy(ts);
    FirstMoveIsFirst(ts, prefs, 0, total / |ts|, total % |ts|);
  }

  /**
    No table above its allowance means no move: when `extra` stays positive
    or no table reaches `target + 1`, the pass never tries anyone.
   */
  lemma {:induction false} FirstMoveWithinAllowance(ts: seq<Table>, prefs: Preferences, i: nat, target: int, extra: int)
    requires i <= |ts|
    requires forall h :: i <= h < |ts| ==> Occupancy(ts[h]) <= target + (if extra > 0 then 1 else 0)
    ensures FirstMove(ts, prefs, i, target, extra).None?
    decreases |ts| - i
  {
    if i < |ts| {
      FirstMoveWithinAllowance(ts, prefs, i + 1, target, extra);
    }
  }

  /** A layout where no table exceeds the rounded-up average is left alone. */
  lemma SoftBalanceKeepsBalanced(ts: seq<Table>, prefs: Preferences)
    requires |ts| > 0
    requires forall i :: 0 <= i < |ts| ==>
      Occupancy(ts[i]) <= TotalOccupancy(ts) / |ts| + (if TotalOccupancy(ts) % |ts| > 0 then 1 else 0)
    ensures SoftBalance(ts, prefs) == Success(ts)
  {
    var total := TotalOccupancy(ts);
    FirstMoveWithinAllowance(ts, prefs, 0, total / |ts|, total % |ts|);
  }

  /** The first seat holding `p` emptied and freed (lines 268-272). */
  function Vacate(t: Table, p: string): (r: Table)
    ensures r.name == t.name && r.capacity == t.capacity && |r.seats| == |t.seats|
    ensures (forall j :: 0 <= j < |t.seats| ==> t.seats[j].occupant != p) ==> r == t
  {
    match FirstWhere(t.seats, (s: Seat) => s.occupant == p)
    case None => t
    case Some(i) => t.(seats := t.seats[i := EmptySeat])
  }

  /** Emptying a taken seat of a consistent table removes exactly that one name. */
  lemma {:induction false} TakenVacate(seats: seq<Seat>, i: nat)
    requires i < |seats| && !seats[i].isfree
    ensures Taken(seats[i := EmptySeat]) + multiset{seats[i].occupant} == Taken(seats)
  {
    if i > 0 {
      assert seats[i := EmptySeat][1..] == seats[1..][i - 1 := EmptySeat];
      TakenVacate(seats[1..], i - 1);
    }
  }

  /**
    The body of one move (lines 268-278): `p` leaves the first seat holding
    them at table `src` and takes the first free seat at table `dest`.
   */
  function MoveOccupant(ts: seq<Table>, src: nat, dest: nat, p: string): (r: seq<Table>)
    requires src < |ts| && dest < |ts|
    ensures |r| == |ts|
    ensures forall i :: 0 <= i < |ts| ==>
      r[i].name == ts[i].name && r[i].capacity == ts[i].capacity && |r[i].seats| == |ts[i].seats|
    ensures forall i :: 0 <= i < |ts| && i != src && i != dest ==> r[i] == ts[i]
  {
    var ts1 := ts[src := Vacate(ts[src], p)];
    ts1[dest := AssignSeat(ts1[dest], p).0]
  }

  lemma Cancel(a: multiset<string>, b: multiset<string>, c: multiset<string>)
    requires a + c == b + c
    ensures a == b
  {
    forall x
      ensures a[x] == b[x]
    {
      assert (a + c)[x] == (b + c)[x];
    }
  }

  /** Everyone seated at some table, with multiplicity. */
  function TakenAll(ts: seq<Table>): multiset<string> {
    if |ts| == 0 then multiset{} else Taken(ts[0].seats) + TakenAll(ts[1..])
  }

  lemma {:induction false} TakenAllUpdate(ts: seq<Table>, i: nat, t: Table)
    requires i < |ts|
    ensures TakenAll(ts[i := t]) + Taken(ts[i].seats) == TakenAll(ts) + Taken(t.seats)
  {
    var u := ts[i := t];
    if i == 0 {
      assert u[1..] == ts[1..];
      assert TakenAll(u) == Taken(t.seats) + TakenAll(ts[1..]);
    } else {
      assert u[0] == ts[0];
      assert u[1..] == ts[1..][i - 1 := t];
      TakenAllUpdate(ts[1..], i - 1, t);
      assert ts[1..][i - 1] == ts[i];
      var a, x, y := Taken(ts[0].seats), TakenAll(u[1..]), TakenAll(ts[1..]);
      assert TakenAll(u) == a + x && TakenAll(ts) == a + y;
      assert x + Taken(ts[i].seats) == y + Taken(t.seats);
      forall n
        ensures (a + x + Taken(ts[i].seats))[n] == (a + y + Taken(t.seats))[n]
      {
        assert (x + Taken(ts[i].seats))[n] == (y + Taken(t.seats))[n];
      }
    }
  }

  /** Vacating a seated, non-empty name of a consistent table removes one copy of it and frees its seat. */
  lemma VacateRemoves(ts: seq<Table>, src: nat, p: string)
    requires src < |ts| && Consistent(ts[src]) && p != ""
    requires exists j :: 0 <= j < |ts[src].seats| && ts[src].seats[j].occupant == p
    ensures TakenAll(ts[src := Vacate(ts[src], p)]) + multiset{p} == TakenAll(ts)
    ensures HasFreeSpot(Vacate(ts[src], p))
  {
    var t := ts[src];
    var i := FirstWhere(t.seats, (s: Seat) => s.occupant == p).value;
    assert t.seats[i].occupant == p;
    assert !t.seats[i].isfree;
    var v := Vacate(t, p);
    assert v.seats == t.seats[i := EmptySeat];
    assert v.seats[i].isfree;
    TakenVacate(t.seats, i);
    TakenAllUpdate(ts, src, v);
    assert TakenAll(ts[src := v]) + multiset{p} + Taken(v.seats) == TakenAll(ts) + Taken(v.seats);
    Cancel(TakenAll(ts[src := v]) + multiset{p}, TakenAll(ts), Taken(v.seats));
  }

  /** Seating `p` at a table with a free seat adds one copy of `p`. */
  lemma AssignAdds(ts: seq<Table>, dest: nat, p: string)
    requires dest < |ts| && HasFreeSpot(ts[dest])
    ensures TakenAll(ts[dest := AssignSeat(ts[dest], p).0]) == TakenAll(ts) + multiset{p}
  {
    var d := ts[dest];
    var step := AssignSeat(d, p);
    var k :| IsFirstFree(d.seats, k) && step.0.seats == d.seats[k := Seat(p, false)];
    TakenFill(d.seats, k, p);
    TakenAllUpdate(ts, dest, step.0);
    assert TakenAll(ts[dest := step.0]) + Taken(d.seats) == TakenAll(ts) + multiset{p} + Taken(d.seats);
    Cancel(TakenAll(ts[dest := step.0]), TakenAll(ts) + multiset{p}, Taken(d.seats));
  }

  /**
    A move of a seated, non-empty name to a table with a free seat (or back
    to its own table) keeps the multiset of seated people, hence the total
    occupancy.
   */
  lemma MoveKeepsSeated(ts: seq<Table>, src: nat, dest: nat, p: string)
    requires src < |ts| && dest < |ts|
    requires AllConsistent(ts) && p != ""
    requires exists j :: 0 <= j < |ts[src].seats| && ts[src].seats[j].occupant == p
    requires src == dest || HasFreeSpot(ts[dest])
    ensures TakenAll(MoveOccupant(ts, src, dest, p)) == TakenAll(ts)
  {
    VacateRemoves(ts, src, p);
    var ts1 := ts[src := Vacate(ts[src], p)];
    assert HasFreeSpot(ts1[dest]);
    AssignAdds(ts1, dest, p);
  }

  /** A move of a non-empty name keeps every table consistent. */
  lemma MoveKeepsConsistent(ts: seq<Table>, src: nat, dest: nat, p: string)
    requires src < |ts| && dest < |ts|
    requires AllConsistent(ts) && p != ""
    ensures AllConsistent(MoveOccupant(ts, src, dest, p))
  {
    var ts1 := ts[src := Vacate(ts[src], p)];
    assert AllConsistent(ts1);
  }
}

=== FILE: engine.dfy ===
/**
  The `OpenSpace` organiser of src/openspace.py: its state, `_reset_tables`,
  `_refresh_seating` and `organise`.
 */
module Engine {
  import opened Results
  import opened Errors
  import opened Tables
  import opened Prefs
  import opened Graph
  import opened Sorting
  import opened Placement
  import opened Balancer

  /** The configuration dict; only `table_capacity` is read. */
  datatype Config = Config(tableCapacity: Option<int>)

  /** The configured table capacity, 5 when the configuration has none. */
  function CapacityOf(config: Config): int {
    config.tableCapacity.GetOr(5)
  }

  /** What `organise` leaves behind for the snapshot: the removed edges and the clusters. */
  datatype RunReport = RunReport(removedEdges: seq<(string, string)>, clusters: seq<seq<string>>)

  /**
    An organiser: the roster, the tables, the configuration, the seat of each
    seated person, each table's seated names, and the report of the last
    `organise` (`None` before the first, when the object has no `clusters`).
   */
  datatype OpenSpace = OpenSpace(
    people: seq<string>,
    tables: seq<Table>,
    config: Config,
    previousSeating: map<string, (string, nat)>,
    wholeSet: seq<(string, seq<string>)>,
    lastRun: Option<RunReport>)

  /** `_reset_tables`: every table cleared; names, capacities and seat counts kept. */
  function ResetTables(ts: seq<Table>): (r: seq<Table>)
    ensures |r| == |ts|
    ensures forall i :: 0 <= i < |ts| ==>
      r[i].name == ts[i].name && r[i].capacity == ts[i].capacity && |r[i].seats| == |ts[i].seats|
    ensures forall i :: 0 <= i < |ts| ==> AllEmpty(r[i]) && LeftCapacity(r[i]) == |r[i].seats|
    ensures AllConsistent(r)
    ensures forall p :: !SeatedIn(r, p)
  {
    var r := seq(|ts|, i requires 0 <= i < |ts| => ClearAssignments(ts[i]));
    assert forall i :: 0 <= i < |r| ==> Taken(r[i].seats) == multiset{} by {
      forall i | 0 <= i < |r|
        ensures Taken(r[i].seats) == multiset{}
      {
        TakenEmpty(r[i].seats);
      }
    }
    r
  }

  /** Table `i`, seat `j` exists and its occupant is `p`. */
  ghost predicate Holds(ts: seq<Table>, p: string, i: int, j: int) {
    0 <= i < |ts| && 0 <= j < |ts[i].seats| && ts[i].seats[j].occupant == p
  }

  /** Seat `(i, j)` comes before seat `(i', j')` in the order tables and seats are visited. */
  ghost predicate Before(i: int, j: int, i': int, j': int) {
    i < i' || (i == i' && j < j')
  }

  /**
    After visiting every seat before `(i, j)`: `prev` has exactly the
    non-empty occupants seen so far, and `at` gives for each the last seat
    seen holding them, whose table name and index `prev` records.
   */
  ghost predicate SeenUpTo(ts: seq<Table>, prev: map<string, (string, nat)>, at: map<string, (nat, nat)>, i: int, j: int) {
    && prev.Keys == at.Keys
    && (forall p :: p in prev <==> p != "" && exists i', j' :: Holds(ts, p, i', j') && Before(i', j', i, j))
    && (forall p :: p in at ==>
          && Holds(ts, p, at[p].0, at[p].1) && Before(at[p].0, at[p].1, i, j)
          && prev[p] == (ts[at[p].0].name, at[p].1)
          && forall i', j' :: Holds(ts, p, i', j') && Before(i', j', i, j) ==> !Before(at[p].0, at[p].1, i', j'))
  }

  /** Visiting seat `(i, j)`: a non-empty occupant is (re)recorded at that seat. */
  lemma SeenStep(ts: seq<Table>, prev: map<string, (string, nat)>, at: map<string, (nat, nat)>, i: nat, j: nat)
    requires i < |ts| && j < |ts[i].seats| && SeenUpTo(ts, prev, at, i, j)
    ensures var q := ts[i].seats[j].occupant;
      if q != "" then SeenUpTo(ts, prev[q := (ts[i].name, j)], at[q := (i, j)], i, j + 1)
      else SeenUpTo(ts, prev, at, i, j + 1)
  {
    var q := ts[i].seats[j].occupant;
    forall i', j'
      ensures Before(i', j', i, j + 1) <==> Before(i', j', i, j) || (i' == i && j' == j)
    {
    }
    if q != "" {
      var prev' := prev[q := (ts[i].name, j)];
      var at' := at[q := (i, j)];
      forall p
        ensures p in prev' <==> p != "" && exists i', j' :: Holds(ts, p, i', j') && Before(i', j', i, j + 1)
      {
        if p == q {
          assert Holds(ts, p, i, j) && Before(i, j, i, j + 1);
        }
      }
    } else {
      forall p
        ensures p in prev <==> p != "" && exists i', j' :: Holds(ts, p, i', j') && Before(i', j', i, j + 1)
      {
        if p != "" && exists i', j' :: Holds(ts, p, i', j') && Before(i', j', i, j + 1) {
          var i', j' :| Holds(ts, p, i', j') && Before(i', j', i, j + 1);
          assert Before(i', j', i, j);
        }
      }
    }
  }

  /** Having visited every seat of table `i` is having visited everything before table `i + 1`. */
  lemma SeenNextTable(ts: seq<Table>, prev: map<string, (string, nat)>, at: map<string, (nat, nat)>, i: nat)
    requires i < |ts| && SeenUpTo(ts, prev, at, i, |ts[i].seats|)
    ensures SeenUpTo(ts, prev, at, i + 1, 0)
  {
    assert forall p, i', j' :: Holds(ts, p, i', j') ==> (Before(i', j', i, |ts[i].seats|) <==> Before(i', j', i + 1, 0));
  }

  /**
    `_refresh_seating`: one `(name, seated names)` entry per table, and for
    every non-empty occupant the table name and seat index of the LAST seat
    holding them, in table-then-seat order.
   */
  method RefreshSeating(ts: seq<Table>) returns (wholeSet: seq<(string, seq<string>)>, prev: map<string, (string, nat)>)
    ensures |wholeSet| == |ts|
    ensures forall i :: 0 <= i < |ts| ==> wholeSet[i].0 == ts[i].name && wholeSet[i].1 == AssignedNames(ts[i])
    ensures forall p :: p in prev <==> p != "" && exists i, j :: Holds(ts, p, i, j)
    ensures forall p :: p in prev ==>
      exists i, j :: Holds(ts, p, i, j) && prev[p] == (ts[i].name, j) && forall i', j' :: Holds(ts, p, i', j') ==> !Before(i, j, i', j')
  {
    wholeSet := [];
    prev := map[];
    ghost var at: map<string, (nat, nat)> := map[];
    var i := 0;
    while i < |ts|
      invariant 0 <= i <= |ts|
      invariant |wholeSet| == i
      invariant forall h :: 0 <= h < i ==> wholeSet[h].0 == ts[h].name && wholeSet[h].1 == AssignedNames(ts[h])
      invariant SeenUpTo(ts, prev, at, i, 0)
    {
      var t := ts[i];
      wholeSet := wholeSet + [(t.name, AssignedNames(t))];
      var j := 0;
      while j < |t.seats|
        invariant 0 <= j <= |t.seats|
        invariant SeenUpTo(ts, prev, at, i, j)
      {
        SeenStep(ts, prev, at, i, j);
        var p := t.seats[j].occupant;
        if p != "" {
          prev := prev[p := (t.name, j)];
          at := at[p := (i, j)];
        }
        j := j + 1;
      }
      SeenNextTable(ts, prev, at, i);
      i := i + 1;
    }
    assert forall p, i', j' :: Holds(ts, p, i', j') ==> Before(i', j', |ts|, 0);
    forall p | p in prev
      ensures exists i, j :: Holds(ts, p, i, j) && prev[p] == (ts[i].name, j) && forall i', j' :: Holds(ts, p, i', j') ==> !Before(i, j, i', j')
    {
      assert Holds(ts, p, at[p].0, at[p].1);
    }
  }

  /** The set of every seat's occupant over all tables, "" included for empty seats. */
  function OccupantSet(ts: seq<Table>): (s: set<string>)
    ensures forall p :: p in s <==> exists i, j :: Holds(ts, p, i, j)
  {
    if |ts| == 0 then {}
    else
      var rest := OccupantSet(ts[1..]);
      var here := set p | p in Occupants(ts[0]);
      assert forall p :: p in here <==> exists j :: 0 <= j < |ts[0].seats| && ts[0].seats[j].occupant == p;
      assert forall p :: p in here ==> exists i, j :: Holds(ts, p, i, j) by {
        forall p | p in here
          ensures exists i, j :: Holds(ts, p, i, j)
        {
          var j :| 0 <= j < |ts[0].seats| && ts[0].seats[j].occupant == p;
          assert Holds(ts, p, 0, j);
        }
      }
      assert forall p :: p in rest ==> exists i, j :: Holds(ts, p, i, j) by {
        forall p | p in rest
          ensures exists i, j :: Holds(ts, p, i, j)
        {
          var i, j :| Holds(ts[1..], p, i, j);
          assert Holds(ts, p, i + 1, j);
        }
      }
      assert forall p :: (exists i, j :: Holds(ts, p, i, j)) ==> p in here || p in rest by {
        forall p | exists i, j :: Holds(ts, p, i, j)
          ensures p in here || p in rest
        {
          var i, j :| Holds(ts, p, i, j);
          if i > 0 {
            assert Holds(ts[1..], p, i - 1, j);
          }
        }
      }
      here + rest
  }

  /** The roster names not in `seated`, in roster order. */
  function Remaining(people: seq<string>, seated: set<string>): (r: seq<string>)
    ensures forall p :: p in r <==> p in people && p !in seated
  {
    if |people| == 0 then []
    else (if people[0] !in seated then [people[0]] else []) + Remaining(people[1..], seated)
  }

  /** Someone lists themself under both "with" and "without": pruning raises the `KeyError`. */
  ghost predicate SelfExcluding(prefs: Preferences) {
    exists p :: Lists(prefs.withoutMap, p, p) && Lists(prefs.withMap, p, p)
  }

  /** No "with" entry has "" as its key or in its list. */
  ghost predicate NoEmptyWithNames(prefs: Preferences) {
    forall a, b :: Lists(prefs.withMap, a, b) ==> a != "" && b != ""
  }

  /** `x` is a key of "with" or on one of its lists. */
  ghost predicate WithNamed(prefs: Preferences, x: string) {
    exists a :: Lists(prefs.withMap, a, x) || Lists(prefs.withMap, x, a)
  }

  /** No cluster holds "". */
  ghost predicate NoEmptyNames(clusters: seq<seq<string>>) {
    forall i :: 0 <= i < |clusters| ==> "" !in clusters[i]
  }

  /** Every roster name is in some cluster. */
  ghost predicate Covers(clusters: seq<seq<string>>, people: seq<string>) {
    forall p :: p in people ==> exists i :: 0 <= i < |clusters| && p in clusters[i]
  }

  /** `a` and `b` are joined after pruning: one names the other under "with" and neither names the other under "without". */
  ghost predicate Linked(prefs: Preferences, a: string, b: string) {
    && (Lists(prefs.withMap, a, b) || Lists(prefs.withMap, b, a))
    && !Lists(prefs.withoutMap, a, b) && !Lists(prefs.withoutMap, b, a)
  }

  /**
    The clusters are the components of `Linked` met in roster order: each
    starts at the first roster name no earlier cluster holds, has no
    repeats, reaches every later member through an earlier one, and holds
    everyone linked to a member.
   */
  ghost predicate LinkedComponents(prefs: Preferences, people: seq<string>, cs: seq<seq<string>>) {
    forall i :: 0 <= i < |cs| ==>
      && |cs[i]| > 0 && StartsAtFirstUnvisited(people, cs, i)
      && Distinct(cs[i])
      && (forall m :: 0 < m < |cs[i]| ==> exists l :: 0 <= l < m && Linked(prefs, cs[i][l], cs[i][m]))
      && (forall x, y :: x in cs[i] && Linked(prefs, x, y) ==> y in cs[i])
  }

  /** Components of the "with" graph pruned by "without" are components of `Linked`. */
  lemma ComponentsLinked(prefs: Preferences, people: seq<string>, pruned: Graph, cs: seq<seq<string>>)
    requires forall a, b :: b in Adj(pruned, a) <==>
      b in Adj(BuildWithGraph(prefs.withMap), a) && !Lists(prefs.withoutMap, a, b) && !Lists(prefs.withoutMap, b, a)
    requires forall i :: 0 <= i < |cs| ==> |cs[i]| > 0 && StartsAtFirstUnvisited(people, cs, i)
    requires forall i :: 0 <= i < |cs| ==> Distinct(cs[i]) && Connected(pruned, cs[i]) && ClosedUnder(pruned, cs[i])
    ensures LinkedComponents(prefs, people, cs)
  {
    forall i | 0 <= i < |cs|
      ensures forall m :: 0 < m < |cs[i]| ==> exists l :: 0 <= l < m && Linked(prefs, cs[i][l], cs[i][m])
      ensures forall x, y :: x in cs[i] && Linked(prefs, x, y) ==> y in cs[i]
    {
      forall m | 0 < m < |cs[i]|
        ensures exists l :: 0 <= l < m && Linked(prefs, cs[i][l], cs[i][m])
      {
        var l :| 0 <= l < m && cs[i][m] in Adj(pruned, cs[i][l]);
        assert Linked(prefs, cs[i][l], cs[i][m]);
      }
      forall x, y | x in cs[i] && Linked(prefs, x, y)
        ensures y in cs[i]
      {
        assert y in Adj(pruned, x);
      }
    }
  }

  /**
    Steps 1-3 of `organise`: the "with" graph, pruned by "without", split
    into clusters in roster order. Fails with the `KeyError` exactly when
    someone lists themself under both.
   */
  method FindClusters(prefs: Preferences, people: seq<string>)
    returns (r: Result<(seq<(string, string)>, seq<seq<string>>), EngineError>)
    ensures r.Failure? <==> SelfExcluding(prefs)
    ensures r.Failure? ==> r.error.GraphKeyError?
    ensures r.Success? ==> r.value.0 == Recorded(BuildWithGraph(prefs.withMap), Pairs(prefs.withoutMap))
    ensures r.Success? ==> FoundClusters(prefs, people, r.value.1)
  {
    var g := BuildWithGraph(prefs.withMap);
    SelfLoopExcluded(prefs);
    var pruning := ApplyWithoutConstraints(g, prefs.withoutMap);
    if pruning.Failure? {
      return Failure(pruning.error);
    }
    var clusters := Clusters(prefs, people, pruning.value.0);
    return Success((pruning.value.1, clusters));
  }

  /** A "without" self-pair meets a self-loop of the "with" graph exactly when someone excludes themself. */
  lemma SelfLoopExcluded(prefs: Preferences)
    ensures (exists p :: Lists(prefs.withoutMap, p, p) && p in Adj(BuildWithGraph(prefs.withMap), p)) <==> SelfExcluding(prefs)
  {
  }

  /**
    What steps 1-3 promise of the clusters: they cover the roster, hold only
    roster names and names from "with", are disjoint, each starts with a
    roster name (so an empty roster gives none), hold "" only when the
    input does, and are the components of `Linked` in roster order.
   */
  ghost predicate FoundClusters(prefs: Preferences, people: seq<string>, cs: seq<seq<string>>) {
    && Covers(cs, people)
    && (forall i, x :: 0 <= i < |cs| && x in cs[i] ==> x in people || WithNamed(prefs, x))
    && (forall i, j, x :: 0 <= i < j < |cs| && x in cs[i] ==> x !in cs[j])
    && (forall i :: 0 <= i < |cs| ==> |cs[i]| > 0 && cs[i][0] in people)
    && (|people| == 0 ==> |cs| == 0)
    && ("" !in people && NoEmptyWithNames(prefs) ==> NoEmptyNames(cs))
    && LinkedComponents(prefs, people, cs)
  }

  /** Step 3 of `organise`: the clusters of the pruned graph, in roster order. */
  method Clusters(prefs: Preferences, people: seq<string>, pruned: Graph) returns (clusters: seq<seq<string>>)
    requires Symmetric(pruned)
    requires forall a, b :: b in Adj(pruned, a) <==>
      b in Adj(BuildWithGraph(prefs.withMap), a) && !Lists(prefs.withoutMap, a, b) && !Lists(prefs.withoutMap, b, a)
    ensures FoundClusters(prefs, people, clusters)
  {
    clusters := ConnectedComponents(pruned, people);
    ClusterMembersNamed(prefs, people, pruned, clusters);
    ClusterMembersNonEmpty(prefs, people, clusters);
    ClustersStartOnRoster(people, clusters);
    ComponentsLinked(prefs, people, pruned, clusters);
  }

  /** A cluster member off the roster is an endpoint of a surviving "with" edge. */
  lemma ClusterMembersNamed(prefs: Preferences, people: seq<string>, pruned: Graph, clusters: seq<seq<string>>)
    requires forall a, b :: b in Adj(pruned, a) ==> Lists(prefs.withMap, a, b) || Lists(prefs.withMap, b, a)
    requires forall i, x :: 0 <= i < |clusters| && x in clusters[i] ==> x in people || x in Nodes(pruned)
    ensures forall i, x :: 0 <= i < |clusters| && x in clusters[i] ==> x in people || WithNamed(prefs, x)
  {
    forall i, x | 0 <= i < |clusters| && x in clusters[i] && x !in people
      ensures WithNamed(prefs, x)
    {
      var a :| a in pruned && x in pruned[a];
      assert x in Adj(pruned, a);
    }
  }

  /** Clusters hold "" only when the roster or a "with" entry does. */
  lemma ClusterMembersNonEmpty(prefs: Preferences, people: seq<string>, clusters: seq<seq<string>>)
    requires forall i, x :: 0 <= i < |clusters| && x in clusters[i] ==> x in people || WithNamed(prefs, x)
    ensures "" !in people && NoEmptyWithNames(prefs) ==> NoEmptyNames(clusters)
  {
    if !NoEmptyNames(clusters) && "" !in people {
      var i :| 0 <= i < |clusters| && "" in clusters[i];
      assert WithNamed(prefs, "");
      var a :| Lists(prefs.withMap, a, "") || Lists(prefs.withMap, "", a);
      assert !NoEmptyWithNames(prefs);
    }
  }

  /** Each component starts at a roster name, so an empty roster has none. */
  lemma ClustersStartOnRoster(people: seq<string>, clusters: seq<seq<string>>)
    requires forall i :: 0 <= i < |clusters| ==> |clusters[i]| > 0 && StartsAtFirstUnvisited(people, clusters, i)
    ensures forall i :: 0 <= i < |clusters| ==> |clusters[i]| > 0 && clusters[i][0] in people
    ensures |people| == 0 ==> |clusters| == 0
  {
    forall i | 0 <= i < |clusters|
      ensures clusters[i][0] in people
    {
      assert StartsAtFirstUnvisited(people, clusters, i);
    }
    NoClustersWithoutRoster(people, clusters);
  }

  /** Placing at least one cluster leaves at least one table. */
  lemma PlaceClustersNonEmpty(ts: seq<Table>, clusters: seq<seq<string>>, capacity: int)
    requires |clusters| > 0
    ensures |PlaceClusters(ts, clusters, capacity)| > 0
  {
    var ts1 := PlaceCluster(ts, clusters[0], capacity);
    assert |ts1| > 0 by {
      if |ts| == 0 {
        assert FirstFit(ts, |clusters[0]|).None?;
      }
    }
  }

  /** Every cluster starts at a roster name, so an empty roster has no clusters. */
  lemma NoClustersWithoutRoster(people: seq<string>, clusters: seq<seq<string>>)
    requires forall i :: 0 <= i < |clusters| ==> |clusters[i]| > 0 && clusters[i][0] in people
    ensures |clusters| > 0 ==> |people| > 0
  {
    if |clusters| > 0 {
      assert clusters[0][0] in people;
    }
  }

  /** Reordering clusters keeps "" out of them. */
  lemma ClusterNamesNonEmpty(clusters: seq<seq<string>>, bySize: seq<seq<string>>)
    requires NoEmptyNames(clusters)
    requires multiset(bySize) == multiset(clusters)
    ensures forall c, k :: c in bySize && 0 <= k < |c| ==> c[k] != ""
  {
    forall c, k | c in bySize && 0 <= k < |c|
      ensures c[k] != ""
    {
      assert c in multiset(clusters);
      var i :| 0 <= i < |clusters| && clusters[i] == c;
      assert c[k] in clusters[i];
    }
  }

  /**
    After step 6 everyone on the roster sits somewhere, given a positive
    capacity, no "" on the roster and consistent tables: whoever step 5 left
    out of every seat is seated one by one, and nobody seated is unseated.
   */
  lemma RemainingSeated(people: seq<string>, prefs: Preferences, ts1: seq<Table>, order: seq<string>, capacity: int)
    requires capacity >= 1 && "" !in people && AllConsistent(ts1)
    requires multiset(order) == multiset(Remaining(people, OccupantSet(ts1)))
    ensures forall p :: p in people ==> SeatedIn(SeatIndividuals(ts1, order, prefs, capacity), p)
  {
    var ts2 := SeatIndividuals(ts1, order, prefs, capacity);
    assert "" !in order by {
      assert forall p :: p in order ==> p in multiset(order);
    }
    forall p | p in people
      ensures SeatedIn(ts2, p)
    {
      if p in OccupantSet(ts1) {
        var i, j :| Holds(ts1, p, i, j);
        assert Consistent(ts1[i]);
        TakenHas(ts1[i].seats, j);
        assert SeatedIn(ts1, p);
      } else {
        assert p in multiset(order);
      }
    }
  }

  /** The sort key of step 5: the larger a cluster, the earlier it comes. */
  function SizeKey(c: seq<string>): int {
    -|c|
  }

  /**
    `sorted(clusters, key=lambda c: -len(c))`: the same clusters, larger
    ones first, and the clusters of each size (key `k` holds those of size
    `-k`) in their original order.
   */
  lemma LargestFirst(clusters: seq<seq<string>>)
    ensures var bySize := SortBy(clusters, SizeKey);
      && multiset(bySize) == multiset(clusters)
      && (forall i, j :: 0 <= i < j < |bySize| ==> |bySize[i]| >= |bySize[j]|)
      && (forall k :: KeyClass(bySize, SizeKey, k) == KeyClass(clusters, SizeKey, k))
  {
    var bySize := SortBy(clusters, SizeKey);
    forall i, j | 0 <= i < j < |bySize|
      ensures |bySize[i]| >= |bySize[j]|
    {
      assert SizeKey(bySize[i]) <= SizeKey(bySize[j]);
    }
  }

  /**
    Steps 5 and 6 as `organise` performs them: the clusters, largest first,
    each placed whole by first fit (else in a new table); then the roster
    names no seat holds yet, in the order `shuffle` gives, seated one by one.
   */
  function Seating(ts0: seq<Table>, clusters: seq<seq<string>>, people: seq<string>, prefs: Preferences,
                   capacity: int, shuffle: seq<string> -> seq<string>): (r: seq<Table>)
  {
    var ts1 := PlaceClusters(ts0, SortBy(clusters, SizeKey), capacity);
    SeatIndividuals(ts1, shuffle(Remaining(people, OccupantSet(ts1))), prefs, capacity)
  }

  /**
    Steps 5 and 6 of `organise`, which compute `Seating`: the tables only grow; they end up empty
    only when they started empty and nobody is on the roster; and with a
    positive capacity, no "" among the names and consistent tables to start
    from, everyone on the roster sits somewhere.
   */
  method SeatRoster(ts0: seq<Table>, clusters: seq<seq<string>>, people: seq<string>, prefs: Preferences,
                    capacity: int, shuffle: seq<string> -> seq<string>)
    returns (ts: seq<Table>)
    requires forall s :: multiset(shuffle(s)) == multiset(s)
    requires Covers(clusters, people) && (|people| == 0 ==> |clusters| == 0)
    ensures Grows(ts0, ts, capacity)
    ensures |ts| == 0 <==> |ts0| == 0 && |people| == 0
    ensures capacity >= 1 && "" !in people && NoEmptyNames(clusters) && AllConsistent(ts0)
      ==> forall p :: p in people ==> SeatedIn(ts, p)
    ensures ts == Seating(ts0, clusters, people, prefs, capacity, shuffle)
  {
    // Step 5
    var bySize := SortBy(clusters, SizeKey);
    var ts1 := PlaceClusters(ts0, bySize, capacity);
    // Step 6
    var order := shuffle(Remaining(people, OccupantSet(ts1)));
    ts := SeatIndividuals(ts1, order, prefs, capacity);
    GrowsTrans(ts0, ts1, ts, capacity);
    if |people| > 0 {
      assert people[0] in people;
      var i :| 0 <= i < |clusters| && people[0] in clusters[i];
      PlaceClustersNonEmpty(ts0, bySize, capacity);
    } else if |ts0| == 0 {
      assert multiset(order) == multiset{};
    }
    if capacity >= 1 && "" !in people && NoEmptyNames(clusters) && AllConsistent(ts0) {
      ClusterNamesNonEmpty(clusters, bySize);
      RemainingSeated(people, prefs, ts1, order, capacity);
    }
  }

  /**
    The seating records agree with the tables: one `wholeSet` entry per
    table holding its name and seated names, and a `previousSeating` entry
    for exactly the names in some seat.
   */
  ghost predicate RecordsMatch(o: OpenSpace) {
    && |o.wholeSet| == |o.tables|
    && (forall i :: 0 <= i < |o.tables| ==> o.wholeSet[i].0 == o.tables[i].name && o.wholeSet[i].1 == AssignedNames(o.tables[i]))
    && (forall p :: p in o.previousSeating <==> p != "" && exists i, j :: Holds(o.tables, p, i, j))
  }

  /**
    Steps 7 and 8 of `organise` on a non-empty seating: the balancing pass,
    then the refreshed seating records.
   */
  method BalanceAndRecord(os: OpenSpace, ts: seq<Table>, prefs: Preferences, report: RunReport)
    returns (r: Result<OpenSpace, EngineError>)
    requires |ts| > 0
    ensures r.Failure? ==> r.error == MissingNameAttribute
    ensures r.Failure? <==> SoftBalance(ts, prefs).Failure?
    ensures r.Success? ==> r.value.people == os.people && r.value.config == os.config
    ensures r.Success? ==> r.value.tables == ts && r.value.lastRun == Some(report)
    ensures r.Success? ==> RecordsMatch(r.value)
  {
    var balanced := SoftBalance(ts, prefs);
    if balanced.Failure? {
      return Failure(balanced.error);
    }
    var wholeSet, previousSeating := RefreshSeating(ts);
    r := Success(OpenSpace(os.people, ts, os.config, previousSeating, wholeSet, Some(report)));
  }

  /**
    Steps 5 to 8 of `organise`, from the tables step 0 left and the clusters
    of step 3; `placed` is the seating after step 6. Stops with the
    `ZeroDivisionError` exactly when there are no tables and nobody on the
    roster, and otherwise with the `AttributeError` exactly when the
    balancing pass fails on `placed`.
   */
  method Arrange(os: OpenSpace, ts0: seq<Table>, prefs: Preferences, report: RunReport,
                 shuffle: seq<string> -> seq<string>)
    returns (r: Result<OpenSpace, EngineError>, placed: seq<Table>)
    requires forall s :: multiset(shuffle(s)) == multiset(s)
    requires Covers(report.clusters, os.people) && (|os.people| == 0 ==> |report.clusters| == 0)
    ensures r.Failure? ==> r.error == NoTables || r.error == MissingNameAttribute
    ensures r.Failure? && r.error == NoTables <==> |ts0| == 0 && |os.people| == 0
    ensures r.Success? ==> r.value.people == os.people && r.value.config == os.config
    ensures r.Success? ==> Grows(ts0, r.value.tables, CapacityOf(os.config)) && r.value.lastRun == Some(report)
    ensures r.Success? ==> RecordsMatch(r.value)
    ensures r.Success? && CapacityOf(os.config) >= 1 && "" !in os.people && NoEmptyNames(report.clusters) && AllConsistent(ts0)
      ==> forall p :: p in os.people ==> SeatedIn(r.value.tables, p)
    ensures placed == Seating(ts0, report.clusters, os.people, prefs, CapacityOf(os.config), shuffle)
    ensures |placed| == 0 <==> |ts0| == 0 && |os.people| == 0
    ensures r.Success? ==> r.value.tables == placed
    ensures |placed| > 0 ==> (r.Failure? <==> SoftBalance(placed, prefs).Failure?)
  {
    var capacity := CapacityOf(os.config);
    // Steps 5 and 6
    placed := SeatRoster(ts0, report.clusters, os.people, prefs, capacity, shuffle);
    // Step 7: the average occupancy divides by the number of tables
    if |placed| == 0 {
      return Failure(NoTables), placed;
    }
    // Steps 7 and 8
    r := BalanceAndRecord(os, placed, prefs, report);
  }

  /**
    `organise` (steps 0-3 and 5-8, and the report step 9 stores). Unless
    `persistent`, every table is cleared; the "with" graph is built and
    pruned by "without"; the clusters are found in roster order, seated whole
    largest first by first fit, and the roster names not yet in any seat are
    seated one by one in the order `shuffle` gives; the balancing pass runs
    and the seating records are refreshed. Tables are only ever appended,
    each new one named after its position.

    Stops with the `KeyError` exactly when someone lists themself under both
    "with" and "without", with the `ZeroDivisionError` when there are no
    tables and nobody on the roster, and otherwise with the `AttributeError`
    exactly when the balancing pass fails on the seating after step 6. Besides
    the result, it returns the clusters of step 3 and that seating, `placed`
    (both empty after the `KeyError`).
   */
  method Organise(os: OpenSpace, prefs: Preferences, persistent: bool, shuffle: seq<string> -> seq<string>)
    returns (r: Result<OpenSpace, EngineError>, clusters: seq<seq<string>>, placed: seq<Table>)
    requires forall s :: multiset(shuffle(s)) == multiset(s)
    ensures r.Failure? ==> (r.error.GraphKeyError? <==> SelfExcluding(prefs))
    ensures SelfExcluding(prefs) ==> r.Failure?
    ensures r.Failure? && r.error == NoTables ==> |os.tables| == 0 && |os.people| == 0
    ensures !SelfExcluding(prefs) && |os.tables| == 0 && |os.people| == 0 ==> r == Failure(NoTables)
    ensures r.Success? ==> r.value.people == os.people && r.value.config == os.config
    ensures r.Success? ==>
      Grows(if persistent then os.tables else ResetTables(os.tables), r.value.tables, CapacityOf(os.config))
    ensures r.Success? ==> r.value.lastRun.Some?
    ensures r.Success? ==>
      r.value.lastRun.value.removedEdges == Recorded(BuildWithGraph(prefs.withMap), Pairs(prefs.withoutMap))
    ensures r.Success? ==> Covers(r.value.lastRun.value.clusters, os.people)
    ensures r.Success? ==> LinkedComponents(prefs, os.people, r.value.lastRun.value.clusters)
    ensures r.Success? ==> RecordsMatch(r.value)
    ensures r.Success? && CapacityOf(os.config) >= 1 && "" !in os.people && NoEmptyWithNames(prefs) && (persistent ==> AllConsistent(os.tables))
      ==> forall p :: p in os.people ==> SeatedIn(r.value.tables, p)
    ensures !SelfExcluding(prefs) ==> FoundClusters(prefs, os.people, clusters)
    ensures !SelfExcluding(prefs) ==>
      placed == Seating(if persistent then os.tables else ResetTables(os.tables), clusters, os.people, prefs, CapacityOf(os.config), shuffle)
    ensures r.Success? ==> r.value.tables == placed && r.value.lastRun.value.clusters == clusters
    ensures !SelfExcluding(prefs) && |placed| > 0 ==> (r.Failure? <==> SoftBalance(placed, prefs).Failure?)
  {
    // Step 0
    var ts0 := if persistent then os.tables else ResetTables(os.tables);
    // Steps 1 to 3
    var found := FindClusters(prefs, os.people);
    if found.Failure? {
      return Failure(found.error), [], [];
    }
    clusters := found.value.1;
    r, placed := Arrange(os, ts0, prefs, RunReport(found.value.0, clusters), shuffle);
  }
}

=== FILE: graph.dfy ===
/**
  The preference graph of src/openspace.py: `_build_with_graph`,
  `_apply_without_constraints` and `_get_connected_components`.
 */
module Graph {
  import opened Results
  import opened Errors
  import opened Prefs

  /** Adjacency sets; a missing key reads as no neighbours (a `defaultdict(set)`). */
  type Graph = map<string, set<string>>

  function Adj(g: Graph, x: string): set<string> {
    if x in g then g[x] else {}
  }

  /** Every edge is present in both directions. */
  ghost predicate Symmetric(g: Graph) {
    forall a, b :: b in Adj(g, a) ==> a in Adj(g, b)
  }

  /** Every name some node lists as a neighbour. */
  function Nodes(g: Graph): set<string> {
    set a, b | a in g && b in g[a] :: b
  }

  /** Links `a` and `b` both ways. */
  function AddEdge(g: Graph, a: string, b: string): (r: Graph)
    ensures forall x :: Adj(r, x) == Adj(g, x) + (if x == a then {b} else {}) + (if x == b then {a} else {})
  {
    var g1 := g[a := Adj(g, a) + {b}];
    g1[b := Adj(g1, b) + {a}]
  }

  /** A member of a non-empty sequence is its head or a member of its tail. */
  lemma InHeadOrTail<T>(s: seq<T>)
    requires |s| > 0
    ensures forall x :: x in s <==> x == s[0] || x in s[1..]
  {
    assert s == [s[0]] + s[1..];
  }

  /** Adds both directions of every pair, in order. */
  function AddEdges(g: Graph, ps: seq<(string, string)>): (r: Graph)
    ensures forall a, b :: b in Adj(r, a) <==> b in Adj(g, a) || (a, b) in ps || (b, a) in ps
    decreases |ps|
  {
    if |ps| == 0 then g
    else
      var r := AddEdges(AddEdge(g, ps[0].0, ps[0].1), ps[1..]);
      InHeadOrTail(ps);
      r
  }

  /**
    `_build_with_graph`: `b` is a neighbour of `a` exactly when one of them
    lists the other under "with"; the result is symmetric.
   */
  function BuildWithGraph(withMap: PrefMap): (g: Graph)
    ensures forall a, b :: b in Adj(g, a) <==> Lists(withMap, a, b) || Lists(withMap, b, a)
    ensures Symmetric(g)
  {
    AddEdges(map[], Pairs(withMap))
  }

  /** The pair `{a, b}` occurs in `ps`, in either orientation. */
  predicate Mentioned(ps: seq<(string, string)>, a: string, b: string) {
    (a, b) in ps || (b, a) in ps
  }

  /**
    Reference for the removed-edge list: the visited pairs `(a, b)` that were
    an edge of `g` and whose pair had not been visited before, in visiting order.
   */
  function Recorded(g: Graph, ps: seq<(string, string)>): seq<(string, string)> {
    if |ps| == 0 then []
    else
      var pre := ps[..|ps| - 1];
      var a := ps[|ps| - 1].0;
      var b := ps[|ps| - 1].1;
      Recorded(g, pre) + (if b in Adj(g, a) && !Mentioned(pre, a, b) then [(a, b)] else [])
  }

  /** Each recorded pair was visited and was an edge; no pair is recorded twice, in either orientation. */
  lemma {:induction false} RecordedOnce(g: Graph, ps: seq<(string, string)>)
    ensures forall k :: 0 <= k < |Recorded(g, ps)| ==>
      Recorded(g, ps)[k] in ps && Recorded(g, ps)[k].1 in Adj(g, Recorded(g, ps)[k].0)
    ensures forall k, l :: 0 <= k < l < |Recorded(g, ps)| ==>
      !Mentioned([Recorded(g, ps)[k]], Recorded(g, ps)[l].0, Recorded(g, ps)[l].1)
  {
    if |ps| > 0 {
      var pre := ps[..|ps| - 1];
      RecordedOnce(g, pre);
      assert ps == pre + [ps[|ps| - 1]];
      var r := Recorded(g, ps);
      var rp := Recorded(g, pre);
      assert forall k :: 0 <= k < |rp| ==> r[k] == rp[k];
      assert forall x :: x in pre ==> x in ps;
    }
  }

  /**
    `graph[a].remove(b); graph[b].remove(a)` once `b` is known to be a
    neighbour of `a`: `None` when the second removal finds `a` missing
    (a `KeyError`), which happens for `a == b` or a one-way edge.
   */
  function RemovePair(cur: Graph, a: string, b: string): (r: Option<Graph>)
    requires b in Adj(cur, a)
    ensures r.None? <==> a == b || a !in Adj(cur, b)
    ensures r.Some? ==>
      forall x :: Adj(r.value, x) == Adj(cur, x) - (if x == a then {b} else {}) - (if x == b then {a} else {})
  {
    var cur1 := cur[a := Adj(cur, a) - {b}];
    if a !in Adj(cur1, b) then None
    else Some(cur1[b := Adj(cur1, b) - {a}])
  }

  /**
    The state after pruning the pairs `done` from `g`: symmetric, an edge
    exactly when `g` has it and `done` does not mention it, and no visited
    self-pair names a self-loop of `g`.
   */
  ghost predicate Pruned(g: Graph, cur: Graph, done: seq<(string, string)>) {
    && Symmetric(cur)
    && (forall a, b :: b in Adj(cur, a) <==> b in Adj(g, a) && !Mentioned(done, a, b))
    && (forall p :: (p, p) in done ==> p !in Adj(g, p))
  }

  /** `Pruned`, and the removed-edge list so far is the reference list. */
  ghost predicate PruneState(g: Graph, cur: Graph, removed: seq<(string, string)>, done: seq<(string, string)>) {
    Pruned(g, cur, done) && removed == Recorded(g, done)
  }

  lemma MentionedSnoc(done: seq<(string, string)>, a: string, b: string, x: string, y: string)
    ensures Mentioned(done + [(a, b)], x, y) <==> Mentioned(done, x, y) || (x == a && y == b) || (x == b && y == a)
  {
    assert (x, y) in done + [(a, b)] <==> (x, y) in done || (x, y) == (a, b);
    assert (y, x) in done + [(a, b)] <==> (y, x) in done || (y, x) == (a, b);
  }

  /** Visiting a pair that is no longer an edge changes nothing. */
  lemma PrunedSkip(g: Graph, cur: Graph, removed: seq<(string, string)>, done: seq<(string, string)>, a: string, b: string)
    requires PruneState(g, cur, removed, done) && b !in Adj(cur, a)
    ensures PruneState(g, cur, removed, done + [(a, b)])
  {
    var done' := done + [(a, b)];
    assert done'[..|done'| - 1] == done;
    forall x, y
      ensures y in Adj(cur, x) <==> y in Adj(g, x) && !Mentioned(done', x, y)
    {
      MentionedSnoc(done, a, b, x, y);
    }
    forall p | (p, p) in done'
      ensures p !in Adj(g, p)
    {
      if (p, p) !in done {
        assert (p, p) == (a, b);
        assert p in Adj(g, p) ==> (p, p) in done;
      }
    }
  }

  /** Removing a two-way edge keeps the pruned state for the longer visited list. */
  lemma PrunedRemove(g: Graph, cur: Graph, removed: seq<(string, string)>, done: seq<(string, string)>,
                      a: string, b: string, next: Graph)
    requires PruneState(g, cur, removed, done) && b in Adj(cur, a) && RemovePair(cur, a, b) == Some(next)
    ensures PruneState(g, next, removed + [(a, b)], done + [(a, b)])
  {
    var done' := done + [(a, b)];
    assert done'[..|done'| - 1] == done;
    forall x, y
      ensures y in Adj(next, x) <==> y in Adj(g, x) && !Mentioned(done', x, y)
    {
      MentionedSnoc(done, a, b, x, y);
    }
    forall p | (p, p) in done'
      ensures p !in Adj(g, p)
    {
      assert (p, p) in done;
    }
  }

  /** On a pruned state, the `KeyError` is raised only for a self-excluding self-loop. */
  lemma PrunedFails(g: Graph, cur: Graph, done: seq<(string, string)>, a: string, b: string)
    requires Pruned(g, cur, done) && b in Adj(cur, a) && RemovePair(cur, a, b).None?
    ensures a == b && a in Adj(g, a)
  {
  }

  /** Pruning by every visited "without" pair, read in terms of the dict. */
  lemma PrunedAll(g: Graph, cur: Graph, withoutMap: PrefMap)
    requires Pruned(g, cur, Pairs(withoutMap))
    ensures Symmetric(cur)
    ensures forall a, b :: b in Adj(cur, a) <==>
      b in Adj(g, a) && !Lists(withoutMap, a, b) && !Lists(withoutMap, b, a)
    ensures !exists p :: Lists(withoutMap, p, p) && p in Adj(g, p)
  {
    var ps := Pairs(withoutMap);
    forall p | Lists(withoutMap, p, p)
      ensures p !in Adj(g, p)
    {
      assert (p, p) in ps;
    }
  }

  /**
    `_apply_without_constraints`: for each visited "without" pair `(a, b)`
    that is an edge, removes both directions and records the pair. The
    second `remove` fails with a `KeyError` when the reverse edge is missing,
    which on a symmetric graph happens exactly for a person who is their own
    neighbour and excludes themselves.
   */
  method ApplyWithoutConstraints(g: Graph, withoutMap: PrefMap)
    returns (r: Result<(Graph, seq<(string, string)>), EngineError>)
    ensures r.Failure? ==> r.error.GraphKeyError?
    ensures Symmetric(g) ==>
      (r.Failure? <==> exists p :: Lists(withoutMap, p, p) && p in Adj(g, p))
    ensures Symmetric(g) && r.Success? ==> Symmetric(r.value.0)
    ensures Symmetric(g) && r.Success? ==>
      forall a, b :: b in Adj(r.value.0, a) <==>
        b in Adj(g, a) && !Lists(withoutMap, a, b) && !Lists(withoutMap, b, a)
    ensures Symmetric(g) && r.Success? ==> r.value.1 == Recorded(g, Pairs(withoutMap))
  {
    r := RemovePairs(g, Pairs(withoutMap));
    if Symmetric(g) {
      if r.Success? {
        PrunedAll(g, r.value.0, withoutMap);
      } else {
        var p :| (p, p) in Pairs(withoutMap) && p in Adj(g, p);
        assert Lists(withoutMap, p, p);
      }
    }
  }

  /**
    One visit of `_apply_without_constraints`: when `b` is still a
    neighbour of `a`, both directions are removed and `(a, b)` recorded
    (`None` for the `KeyError` of the second removal); otherwise nothing
    changes.
   */
  function PruneStep(cur: Graph, removed: seq<(string, string)>, a: string, b: string)
    : (r: Option<(Graph, seq<(string, string)>)>)
    ensures r.None? ==> b in Adj(cur, a) && (a == b || a !in Adj(cur, b))
    ensures r.Some? && b !in Adj(cur, a) ==> r.value == (cur, removed)
    ensures r.Some? && b in Adj(cur, a) ==> r.value.1 == removed + [(a, b)]
  {
    if b in Adj(cur, a) then
      match RemovePair(cur, a, b)
      case None => None
      case Some(next) => Some((next, removed + [(a, b)]))
    else Some((cur, removed))
  }

  /** A visit keeps the pruned state, and fails only at a self-pair naming a self-loop. */
  lemma PruneStepKeeps(g: Graph, cur: Graph, removed: seq<(string, string)>, done: seq<(string, string)>, a: string, b: string)
    requires PruneState(g, cur, removed, done)
    ensures PruneStep(cur, removed, a, b).None? ==> a == b && a in Adj(g, a)
    ensures PruneStep(cur, removed, a, b).Some? ==>
      PruneState(g, PruneStep(cur, removed, a, b).value.0, PruneStep(cur, removed, a, b).value.1, done + [(a, b)])
  {
    if b in Adj(cur, a) {
      match RemovePair(cur, a, b)
      case None =>
        PrunedFails(g, cur, done, a, b);
      case Some(next) =>
        PrunedRemove(g, cur, removed, done, a, b, next);
    } else {
      PrunedSkip(g, cur, removed, done, a, b);
    }
  }

  /**
    The loop of `_apply_without_constraints` over the visited pairs `ps`:
    on a symmetric graph it fails only at a self-pair naming a self-loop,
    and otherwise ends in the pruned state for all of `ps`.
   */
  method RemovePairs(g: Graph, ps: seq<(string, string)>)
    returns (r: Result<(Graph, seq<(string, string)>), EngineError>)
    ensures r.Failure? ==> r.error.GraphKeyError?
    ensures Symmetric(g) && r.Failure? ==> exists p :: (p, p) in ps && p in Adj(g, p)
    ensures Symmetric(g) && r.Success? ==> PruneState(g, r.value.0, r.value.1, ps)
  {
    var cur := g;
    var removed: seq<(string, string)> := [];
    var k := 0;
    while k < |ps|
      invariant 0 <= k <= |ps|
      invariant Symmetric(g) ==> PruneState(g, cur, removed, ps[..k])
    {
      var a := ps[k].0;
      var b := ps[k].1;
      var step := PruneStep(cur, removed, a, b);
      if Symmetric(g) {
        PruneStepKeeps(g, cur, removed, ps[..k], a, b);
        assert ps[..k + 1] == ps[..k] + [(a, b)];
      }
      if step.None? {
        if Symmetric(g) {
          assert ps[k] in ps;
        }
        return Failure(GraphKeyError(a));
      }
      cur := step.value.0;
      removed := step.value.1;
      k := k + 1;
    }
    assert ps[..k] == ps;
    return Success((cur, removed));
  }

  /** The members of `s`, as a set. */
  function Elems(s: seq<string>): set<string> {
    set x | x in s
  }

  /** No name occurs twice. */
  ghost predicate Distinct(s: seq<string>) {
    forall i, j :: 0 <= i < j < |s| ==> s[i] != s[j]
  }

  /** Every member after the first is a neighbour of an earlier member. */
  ghost predicate Connected(g: Graph, s: seq<string>) {
    forall m :: 0 < m < |s| ==> exists l :: 0 <= l < m && s[m] in Adj(g, s[l])
  }

  /** Everyone adjacent to a member of `s` is a member. */
  ghost predicate ClosedUnder(g: Graph, s: seq<string>) {
    forall x, y :: x in s && y in Adj(g, x) ==> y in s
  }

  /** All names in the components, as one set. */
  function Covered(cs: seq<seq<string>>): set<string> {
    if |cs| == 0 then {} else Covered(cs[..|cs| - 1]) + Elems(cs[|cs| - 1])
  }

  lemma {:induction false} CoveredMember(cs: seq<seq<string>>, x: string)
    ensures x in Covered(cs) <==> exists i :: 0 <= i < |cs| && x in cs[i]
  {
    if |cs| > 0 {
      var pre := cs[..|cs| - 1];
      CoveredMember(pre, x);
      assert forall i :: 0 <= i < |pre| ==> pre[i] == cs[i];
      if x in Covered(pre) {
        var i :| 0 <= i < |pre| && x in pre[i];
        assert x in cs[i];
      }
    }
  }

  /**
    One breadth-first search of `_get_connected_components`, from `p`, over
    names not yet in `covered`. The deque is the unprocessed suffix
    `comp[k..]`; neighbours are taken in an unspecified order, as Python
    iterates a set.
   */
  method Explore(g: Graph, covered: set<string>, p: string) returns (comp: seq<string>)
    requires p !in covered
    ensures |comp| > 0 && comp[0] == p
    ensures Distinct(comp)
    ensures forall x :: x in comp ==> x !in covered
    ensures forall x :: x in comp ==> x == p || x in Nodes(g)
    ensures Connected(g, comp)
    ensures forall x :: x in comp ==> Adj(g, x) <= covered + Elems(comp)
  {
    comp := [p];
    var k := 0;
    while k < |comp|
      invariant 0 <= k <= |comp|
      invariant |comp| > 0 && comp[0] == p
      invariant Distinct(comp)
      invariant forall x :: x in comp ==> x !in covered
      invariant forall x :: x in comp ==> x == p || x in Nodes(g)
      invariant Connected(g, comp)
      invariant forall j :: 0 <= j < k ==> Adj(g, comp[j]) <= covered + Elems(comp)
      decreases (Nodes(g) + {p}) - Elems(comp), |comp| - k
    {
      var next := VisitNeighbours(g, covered, comp, k);
      ExtendSearch(g, p, comp, next, k);
      forall j | 0 <= j <= k
        ensures Adj(g, next[j]) <= covered + Elems(next)
      {
        assert next[j] == comp[j];
        if j < k {
          assert Adj(g, comp[j]) <= covered + Elems(comp);
        }
      }
      comp := next;
      k := k + 1;
    }
  }

  /** Appending neighbours of `comp[k]` keeps the search's invariants and grows its member set. */
  lemma ExtendSearch(g: Graph, p: string, comp: seq<string>, next: seq<string>, k: nat)
    requires k < |comp| && |next| >= |comp| && next[..|comp|] == comp
    requires Connected(g, comp)
    requires forall x :: x in comp ==> x == p || x in Nodes(g)
    requires forall m :: |comp| <= m < |next| ==> next[m] in Adj(g, comp[k])
    requires Distinct(next)
    ensures Connected(g, next)
    ensures forall x :: x in next ==> x == p || x in Nodes(g)
    ensures Elems(comp) <= Elems(next)
    ensures |next| > |comp| ==> Elems(comp) < Elems(next)
  {
    assert forall j :: 0 <= j < |comp| ==> next[j] == comp[j];
    forall m | 0 < m < |next|
      ensures exists l :: 0 <= l < m && next[m] in Adj(g, next[l])
    {
      if m < |comp| {
        var l :| 0 <= l < m && comp[m] in Adj(g, comp[l]);
        assert next[l] == comp[l];
      } else {
        assert next[k] == comp[k];
      }
    }
    forall x | x in next
      ensures x == p || x in Nodes(g)
    {
      var m :| 0 <= m < |next| && next[m] == x;
      if m >= |comp| {
        assert comp[k] in g;
      } else {
        assert x in comp;
      }
    }
    if |next| > |comp| {
      assert next[|comp|] !in Elems(comp);
      assert next[|comp|] in Elems(next);
    }
  }

  /**
    The inner loop of one search step: appends each neighbour of `comp0[k]`
    not yet visited, in an unspecified order.
   */
  method VisitNeighbours(g: Graph, covered: set<string>, comp0: seq<string>, k: nat) returns (comp: seq<string>)
    requires k < |comp0|
    requires Distinct(comp0)
    requires forall x :: x in comp0 ==> x !in covered
    ensures |comp| >= |comp0| && comp[..|comp0|] == comp0
    ensures Distinct(comp)
    ensures forall x :: x in comp ==> x !in covered
    ensures forall m :: |comp0| <= m < |comp| ==> comp[m] in Adj(g, comp0[k])
    ensures Adj(g, comp0[k]) <= covered + Elems(comp)
  {
    comp := comp0;
    var visited := covered + Elems(comp0);
    var nbrs := Adj(g, comp0[k]);
    while nbrs != {}
      invariant |comp| >= |comp0| && comp[..|comp0|] == comp0
      invariant visited == covered + Elems(comp)
      invariant Distinct(comp)
      invariant forall x :: x in comp ==> x !in covered
      invariant forall m :: |comp0| <= m < |comp| ==> comp[m] in Adj(g, comp0[k])
      invariant nbrs <= Adj(g, comp0[k])
      invariant Adj(g, comp0[k]) - nbrs <= visited
      decreases nbrs
    {
      var nb :| nb in nbrs;
      nbrs := nbrs - {nb};
      if nb !in visited {
        visited := visited + {nb};
        comp := comp + [nb];
      }
    }
  }

  /** Component `i` starts with the first roster name no earlier component holds. */
  ghost predicate StartsAtFirstUnvisited(people: seq<string>, cs: seq<seq<string>>, i: int)
    requires 0 <= i < |cs| && |cs[i]| > 0
  {
    exists h :: 0 <= h < |people| && people[h] == cs[i][0] && people[h] !in Covered(cs[..i])
      && forall h' :: 0 <= h' < h ==> people[h'] in Covered(cs[..i])
  }

  /**
    The facts `_get_connected_components` keeps about the components found
    so far: each starts at the first roster name no earlier one holds, they
    are disjoint, each is connected without repeats and holds only roster
    names or graph nodes, and on a symmetric graph each is closed.
   */
  ghost predicate Partitioned(g: Graph, people: seq<string>, comps: seq<seq<string>>) {
    && (forall i :: 0 <= i < |comps| ==> |comps[i]| > 0 && StartsAtFirstUnvisited(people, comps, i))
    && (forall i, j, x :: 0 <= i < j < |comps| && x in comps[i] ==> x !in comps[j])
    && (forall i :: 0 <= i < |comps| ==> Distinct(comps[i]) && Connected(g, comps[i]))
    && (forall i, x :: 0 <= i < |comps| && x in comps[i] ==> x in people || x in Nodes(g))
    && (Symmetric(g) ==> forall i :: 0 <= i < |comps| ==> ClosedUnder(g, comps[i]))
  }

  /** The first `idx` roster names are covered, and the covered names are closed under adjacency. */
  ghost predicate SearchedUpTo(g: Graph, people: seq<string>, comps: seq<seq<string>>, idx: int) {
    && 0 <= idx <= |people|
    && (forall h :: 0 <= h < idx ==> people[h] in Covered(comps))
    && (forall x :: x in Covered(comps) ==> Adj(g, x) <= Covered(comps))
  }

  /**
    `_get_connected_components`: the components partition the names they
    hold, every roster name is in one, each starts with the next roster name
    not yet visited, each is connected and holds only roster names or graph
    nodes, and on a symmetric graph each is closed under adjacency.
   */
  method ConnectedComponents(g: Graph, people: seq<string>) returns (comps: seq<seq<string>>)
    ensures forall i :: 0 <= i < |comps| ==> |comps[i]| > 0 && StartsAtFirstUnvisited(people, comps, i)
    ensures forall i, j, x :: 0 <= i < j < |comps| && x in comps[i] ==> x !in comps[j]
    ensures forall i :: 0 <= i < |comps| ==> Distinct(comps[i]) && Connected(g, comps[i])
    ensures forall p :: p in people ==> exists i :: 0 <= i < |comps| && p in comps[i]
    ensures forall i, x :: 0 <= i < |comps| && x in comps[i] ==> x in people || x in Nodes(g)
    ensures Symmetric(g) ==> forall i :: 0 <= i < |comps| ==> ClosedUnder(g, comps[i])
  {
    var visited: set<string> := {};
    comps := [];
    var idx := 0;
    while idx < |people|
      invariant visited == Covered(comps)
      invariant Partitioned(g, people, comps) && SearchedUpTo(g, people, comps, idx)
    {
      var p := people[idx];
      if p !in visited {
        var comp := Explore(g, visited, p);
        ComponentsStep(g, people, comps, idx, comp);
        comps := comps + [comp];
        visited := visited + Elems(comp);
      }
      idx := idx + 1;
    }
    forall p | p in people
      ensures exists i :: 0 <= i < |comps| && p in comps[i]
    {
      CoveredMember(comps, p);
    }
  }

  /** One search from the first uncovered roster name keeps both invariants. */
  lemma ComponentsStep(g: Graph, people: seq<string>, comps: seq<seq<string>>, idx: int, comp: seq<string>)
    requires Partitioned(g, people, comps) && SearchedUpTo(g, people, comps, idx)
    requires idx < |people| && people[idx] !in Covered(comps)
    requires |comp| > 0 && comp[0] == people[idx]
    requires Distinct(comp) && Connected(g, comp)
    requires forall x :: x in comp ==> x !in Covered(comps)
    requires forall x :: x in comp ==> x == people[idx] || x in Nodes(g)
    requires forall x :: x in comp ==> Adj(g, x) <= Covered(comps) + Elems(comp)
    ensures Covered(comps + [comp]) == Covered(comps) + Elems(comp)
    ensures Partitioned(g, people, comps + [comp]) && SearchedUpTo(g, people, comps + [comp], idx + 1)
  {
    var cs := comps + [comp];
    ExtendComponents(people, comps, comp, idx);
    StepShape(g, people, comps, comp, idx);
    if Symmetric(g) {
      StepClosed(g, comps, comp);
    }
    StepSearched(g, people, comps, comp, idx);
  }

  /** The new component is disjoint from, and shaped like, the earlier ones. */
  lemma StepShape(g: Graph, people: seq<string>, comps: seq<seq<string>>, comp: seq<string>, idx: int)
    requires Partitioned(g, people, comps)
    requires 0 <= idx < |people| && |comp| > 0 && comp[0] == people[idx]
    requires Distinct(comp) && Connected(g, comp)
    requires forall x :: x in comp ==> x == people[idx] || x in Nodes(g)
    requires forall i, x :: 0 <= i < |comps| && x in comps[i] ==> x !in comp
    ensures var cs := comps + [comp];
      && (forall i, j, x :: 0 <= i < j < |cs| && x in cs[i] ==> x !in cs[j])
      && (forall i :: 0 <= i < |cs| ==> Distinct(cs[i]) && Connected(g, cs[i]))
      && (forall i, x :: 0 <= i < |cs| && x in cs[i] ==> x in people || x in Nodes(g))
  {
    var cs := comps + [comp];
    assert forall i :: 0 <= i < |comps| ==> cs[i] == comps[i];
    assert cs[|comps|] == comp;
  }

  /** On a symmetric graph a search that only reaches covered names or its own members is closed. */
  lemma StepClosed(g: Graph, comps: seq<seq<string>>, comp: seq<string>)
    requires Symmetric(g)
    requires forall x :: x in Covered(comps) ==> Adj(g, x) <= Covered(comps)
    requires forall x :: x in comp ==> x !in Covered(comps)
    requires forall x :: x in comp ==> Adj(g, x) <= Covered(comps) + Elems(comp)
    requires forall i :: 0 <= i < |comps| ==> ClosedUnder(g, comps[i])
    ensures forall i :: 0 <= i < |comps + [comp]| ==> ClosedUnder(g, (comps + [comp])[i])
  {
    var cs := comps + [comp];
    assert forall i :: 0 <= i < |comps| ==> cs[i] == comps[i];
    forall x, y | x in comp && y in Adj(g, x)
      ensures y in comp
    {
      assert x in Adj(g, y);
      assert y !in Covered(comps);
    }
    assert cs[|comps|] == comp;
  }

  /** After the search the next roster name is covered and the covered names stay closed. */
  lemma StepSearched(g: Graph, people: seq<string>, comps: seq<seq<string>>, comp: seq<string>, idx: int)
    requires SearchedUpTo(g, people, comps, idx)
    requires idx < |people| && |comp| > 0 && comp[0] == people[idx]
    requires Covered(comps + [comp]) == Covered(comps) + Elems(comp)
    requires forall x :: x in comp ==> Adj(g, x) <= Covered(comps) + Elems(comp)
    ensures SearchedUpTo(g, people, comps + [comp], idx + 1)
  {
  }

  /** Appending a fresh component keeps the bookkeeping of the components before it. */
  lemma ExtendComponents(people: seq<string>, comps: seq<seq<string>>, comp: seq<string>, idx: nat)
    requires idx < |people| && |comp| > 0 && comp[0] == people[idx]
    requires people[idx] !in Covered(comps)
    requires forall h :: 0 <= h < idx ==> people[h] in Covered(comps)
    requires forall x :: x in comp ==> x !in Covered(comps)
    requires forall i :: 0 <= i < |comps| ==> |comps[i]| > 0 && StartsAtFirstUnvisited(people, comps, i)
    ensures var cs := comps + [comp];
      && Covered(cs) == Covered(comps) + Elems(comp)
      && (forall i :: 0 <= i < |cs| ==> |cs[i]| > 0 && StartsAtFirstUnvisited(people, cs, i))
      && (forall i, x :: 0 <= i < |comps| && x in comps[i] ==> x !in comp)
  {
    var cs := comps + [comp];
    assert cs[..|comps|] == comps;
    forall i | 0 <= i < |cs|
      ensures |cs[i]| > 0 && StartsAtFirstUnvisited(people, cs, i)
    {
      if i < |comps| {
        assert cs[..i] == comps[..i];
        assert cs[i] == comps[i];
      } else {
        assert cs[..i] == comps;
        assert people[idx] == cs[i][0];
      }
    }
    forall i, x | 0 <= i < |comps| && x in comps[i]
      ensures x !in comp
    {
      CoveredMember(comps, x);
    }
  }
}

=== FILE: placement.dfy ===
/**
  Choosing tables in src/openspace.py: `_violates_without_preferences`,
  `_find_table_for_person`, and steps 5 and 6 of `organise` (whole clusters
  by first fit, then the remaining individuals).
 */
module Placement {
  import opened Results
  import opened Strings
  import opened Tables
  import opened Prefs

  /** `f"Table {n}"`: the name a table appended as the `n`-th gets. */
  function TableName(n: nat): string {
    "Table " + NatToString(n)
  }

  /** The first index whose element satisfies `p`, if any. */
  function FirstWhere<T>(s: seq<T>, p: T -> bool): (r: Option<nat>)
    ensures r.Some? ==> r.value < |s| && p(s[r.value]) && forall i :: 0 <= i < r.value ==> !p(s[i])
    ensures r.None? ==> forall i :: 0 <= i < |s| ==> !p(s[i])
  {
    if |s| == 0 then None
    else if p(s[0]) then Some(0)
    else
      match FirstWhere(s[1..], p)
      case None => None
      case Some(i) => Some(i + 1)
  }

  /** No seat has an empty occupant (true for a seatless table). */
  predicate Full(t: Table) {
    forall j :: 0 <= j < |t.seats| ==> t.seats[j].occupant != ""
  }

  /** Some seat holds a non-empty occupant from `forbidden`. */
  function AnyForbidden(seats: seq<Seat>, forbidden: seq<string>): (b: bool)
    ensures b <==> exists j :: 0 <= j < |seats| && seats[j].occupant != "" && seats[j].occupant in forbidden
  {
    if |seats| == 0 then false
    else
      assert forall j :: 1 <= j < |seats| ==> seats[j] == seats[1..][j - 1];
      (seats[0].occupant != "" && seats[0].occupant in forbidden) || AnyForbidden(seats[1..], forbidden)
  }

  /** `_violates_without_preferences`: someone at the table is on `person`'s "without" list. */
  function ViolatesWithout(person: string, t: Table, prefs: Preferences): (b: bool)
    ensures b <==> exists j :: 0 <= j < |t.seats| && t.seats[j].occupant != "" && t.seats[j].occupant in Lookup(prefs.withoutMap, person)
  {
    AnyForbidden(t.seats, Lookup(prefs.withoutMap, person))
  }

  /** No seat holds a non-empty occupant who is a key of "with" or "without". */
  function OnlyFreeOccupants(seats: seq<Seat>, prefs: Preferences): (b: bool)
    ensures b <==> forall j :: 0 <= j < |seats| ==> seats[j].occupant == "" || IsFreePerson(prefs, seats[j].occupant)
  {
    if |seats| == 0 then true
    else
      assert forall j :: 1 <= j < |seats| ==> seats[j] == seats[1..][j - 1];
      (seats[0].occupant == "" || IsFreePerson(prefs, seats[0].occupant)) && OnlyFreeOccupants(seats[1..], prefs)
  }

  /** The three tests `_find_table_for_person` applies to a table. */
  predicate Suitable(t: Table, person: string, prefs: Preferences, freeOnly: bool) {
    && !Full(t)
    && !ViolatesWithout(person, t, prefs)
    && (freeOnly ==> OnlyFreeOccupants(t.seats, prefs))
  }

  /**
    `_find_table_for_person`: the first table, in list order, with an empty
    occupant, nobody on the person's "without" list, and (when `freeOnly`)
    only free occupants; `None` when there is no such table.
   */
  function FindTableForPerson(ts: seq<Table>, person: string, prefs: Preferences, freeOnly: bool): (r: Option<nat>)
    ensures r.Some? ==> r.value < |ts|
    ensures r.Some? ==>
      && (exists j :: 0 <= j < |ts[r.value].seats| && ts[r.value].seats[j].occupant == "")
      && (forall j :: 0 <= j < |ts[r.value].seats| && ts[r.value].seats[j].occupant != "" ==>
            ts[r.value].seats[j].occupant !in Lookup(prefs.withoutMap, person))
      && (freeOnly ==> forall j :: 0 <= j < |ts[r.value].seats| ==>
            ts[r.value].seats[j].occupant == "" || IsFreePerson(prefs, ts[r.value].seats[j].occupant))
    ensures r.Some? ==> forall i :: 0 <= i < r.value ==> !Suitable(ts[i], person, prefs, freeOnly)
    ensures r.None? ==> forall i :: 0 <= i < |ts| ==> !Suitable(ts[i], person, prefs, freeOnly)
  {
    FirstWhere(ts, t => Suitable(t, person, prefs, freeOnly))
  }

  /** `assign_seat` for each name in turn, ignoring each answer. */
  function AssignAll(t: Table, ns: seq<string>): (r: Table)
    ensures r.name == t.name && r.capacity == t.capacity && |r.seats| == |t.seats|
    ensures forall j :: 0 <= j < |t.seats| && !t.seats[j].isfree ==> r.seats[j] == t.seats[j]
    decreases |ns|
  {
    if |ns| == 0 then t
    else AssignAll(AssignSeat(t, ns[0]).0, ns[1..])
  }

  /**
    Seating a list fills the first free seats with as many names as there
    is room for, in list order; the names beyond the free seats are dropped.
   */
  lemma {:induction false} AssignAllFills(t: Table, ns: seq<string>)
    ensures LeftCapacity(AssignAll(t, ns)) == LeftCapacity(t) - Min(|ns|, LeftCapacity(t))
    ensures Taken(AssignAll(t, ns).seats) == Taken(t.seats) + multiset(ns[..Min(|ns|, LeftCapacity(t))])
    decreases |ns|
  {
    if |ns| > 0 {
      var step := AssignSeat(t, ns[0]);
      AssignAllFills(step.0, ns[1..]);
      AssignSeatTakes(t, ns[0]);
      if step.1 {
        MultisetPrefixCons(ns, Min(|ns|, LeftCapacity(t)));
      } else {
        assert ns[..0] == [] && ns[1..][..0] == [];
      }
    }
  }

  lemma MultisetPrefixCons(ns: seq<string>, m: nat)
    requires 1 <= m <= |ns|
    ensures multiset(ns[..m]) == multiset{ns[0]} + multiset(ns[1..][..m - 1])
  {
    assert ns[..m] == [ns[0]] + ns[1..][..m - 1];
  }

  /** Seating non-empty names keeps a table consistent. */
  lemma {:induction false} AssignAllConsistent(t: Table, ns: seq<string>)
    requires forall k :: 0 <= k < |ns| ==> ns[k] != ""
    requires Consistent(t)
    ensures Consistent(AssignAll(t, ns))
    decreases |ns|
  {
    if |ns| > 0 {
      AssignAllConsistent(AssignSeat(t, ns[0]).0, ns[1..]);
    }
  }

  /** Some table of `ts` has `p` in a taken seat. */
  ghost predicate SeatedIn(ts: seq<Table>, p: string) {
    exists i :: 0 <= i < |ts| && p in Taken(ts[i].seats)
  }

  ghost predicate AllConsistent(ts: seq<Table>) {
    forall i :: 0 <= i < |ts| ==> Consistent(ts[i])
  }

  /**
    `r` is `ts` after seating more people and appending new tables: the old
    tables keep their names, capacities, seat counts and taken seats, and the
    `i`-th table (from 0) appended is "Table {i+1}" with `capacity` empty
    seats at the moment it was made.
   */
  ghost predicate Grows(ts: seq<Table>, r: seq<Table>, capacity: int) {
    && |r| >= |ts|
    && (forall i :: 0 <= i < |ts| ==>
          && r[i].name == ts[i].name && r[i].capacity == ts[i].capacity
          && |r[i].seats| == |ts[i].seats|
          && forall j :: 0 <= j < |ts[i].seats| && !ts[i].seats[j].isfree ==> r[i].seats[j] == ts[i].seats[j])
    && (forall i :: |ts| <= i < |r| ==>
          r[i].name == TableName(i + 1) && r[i].capacity == capacity && |r[i].seats| == SeatCount(capacity))
  }

  lemma GrowsTrans(a: seq<Table>, b: seq<Table>, c: seq<Table>, capacity: int)
    requires Grows(a, b, capacity) && Grows(b, c, capacity)
    ensures Grows(a, c, capacity)
  {
  }

  /** Nobody already seated is unseated by growing. */
  lemma GrowsKeepsSeated(ts: seq<Table>, r: seq<Table>, capacity: int, p: string)
    requires Grows(ts, r, capacity) && SeatedIn(ts, p)
    ensures SeatedIn(r, p)
  {
    var i :| 0 <= i < |ts| && p in Taken(ts[i].seats);
    TakenMember(ts[i].seats, p);
    var j :| 0 <= j < |ts[i].seats| && ts[i].seats[j].occupant == p && !ts[i].seats[j].isfree;
    TakenHas(r[i].seats, j);
  }

  /** A table of `ts` is the first with room for `n` people. */
  ghost predicate IsFirstFit(ts: seq<Table>, n: nat, i: int) {
    0 <= i < |ts| && LeftCapacity(ts[i]) >= n && forall h :: 0 <= h < i ==> LeftCapacity(ts[h]) < n
  }

  /** The table index step 5 picks for a cluster of `n` people, if any has room. */
  function FirstFit(ts: seq<Table>, n: nat): (r: Option<nat>)
    ensures r.Some? ==> IsFirstFit(ts, n, r.value)
    ensures r.None? ==> forall i :: 0 <= i < |ts| ==> LeftCapacity(ts[i]) < n
  {
    FirstWhere(ts, (t: Table) => LeftCapacity(t) >= n)
  }

  /**
    One iteration of step 5 of `organise`: the cluster goes whole into the
    first table with room for it; if none has room, into a new table of the
    configured capacity appended at the end.
   */
  function PlaceCluster(ts: seq<Table>, cluster: seq<string>, capacity: int): (r: seq<Table>)
    ensures Grows(ts, r, capacity) && |r| <= |ts| + 1
  {
    match FirstFit(ts, |cluster|)
    case Some(i) => ts[i := AssignAll(ts[i], cluster)]
    case None => ts + [AssignAll(NewTable(TableName(|ts| + 1), capacity, None), cluster)]
  }

  /** With a table that has room, the whole cluster joins the first such table and nothing else changes. */
  lemma PlaceClusterFirstFit(ts: seq<Table>, cluster: seq<string>, capacity: int, i: nat)
    requires IsFirstFit(ts, |cluster|, i)
    ensures var r := PlaceCluster(ts, cluster, capacity);
      && |r| == |ts|
      && Taken(r[i].seats) == Taken(ts[i].seats) + multiset(cluster)
      && forall h :: 0 <= h < |ts| && h != i ==> r[h] == ts[h]
  {
    assert FirstFit(ts, |cluster|) == Some(i);
    AssignAllFills(ts[i], cluster);
    assert cluster[..|cluster|] == cluster;
  }

  /**
    With no table that has room, a new table is appended and takes the
    cluster's first members up to its seat count; the rest are dropped.
   */
  lemma PlaceClusterNewTable(ts: seq<Table>, cluster: seq<string>, capacity: int)
    requires forall i :: 0 <= i < |ts| ==> LeftCapacity(ts[i]) < |cluster|
    ensures var r := PlaceCluster(ts, cluster, capacity);
      && |r| == |ts| + 1 && r[..|ts|] == ts
      && Taken(r[|ts|].seats) == multiset(cluster[..Min(|cluster|, SeatCount(capacity))])
  {
    var added := NewTable(TableName(|ts| + 1), capacity, None);
    TakenEmpty(added.seats);
    AssignAllFills(added, cluster);
    var r := PlaceCluster(ts, cluster, capacity);
    assert r == ts + [AssignAll(added, cluster)];
    assert r[..|ts|] == ts;
  }

  /** Placing a cluster of non-empty names keeps every table consistent. */
  lemma PlaceClusterConsistent(ts: seq<Table>, cluster: seq<string>, capacity: int)
    requires forall k :: 0 <= k < |cluster| ==> cluster[k] != ""
    requires AllConsistent(ts)
    ensures AllConsistent(PlaceCluster(ts, cluster, capacity))
  {
    match FirstFit(ts, |cluster|)
    case Some(i) =>
      AssignAllConsistent(ts[i], cluster);
    case None =>
      AssignAllConsistent(NewTable(TableName(|ts| + 1), capacity, None), cluster);
  }

  /** Seats that are all free hold nobody. */
  lemma {:induction false} TakenEmpty(seats: seq<Seat>)
    requires forall j :: 0 <= j < |seats| ==> seats[j].isfree
    ensures Taken(seats) == multiset{}
  {
    if |seats| > 0 {
      TakenEmpty(seats[1..]);
    }
  }

  /** A cluster the configured capacity can hold ends up seated, wherever it goes. */
  lemma PlaceClusterSeatsAll(ts: seq<Table>, cluster: seq<string>, capacity: int)
    requires |cluster| <= SeatCount(capacity)
    ensures forall p :: p in cluster ==> SeatedIn(PlaceCluster(ts, cluster, capacity), p)
  {
    var r := PlaceCluster(ts, cluster, capacity);
    match FirstFit(ts, |cluster|)
    case Some(i) =>
      PlaceClusterFirstFit(ts, cluster, capacity, i);
      assert forall p :: p in cluster ==> p in Taken(r[i].seats);
    case None =>
      PlaceClusterNewTable(ts, cluster, capacity);
      assert cluster[..Min(|cluster|, SeatCount(capacity))] == cluster;
      assert forall p :: p in cluster ==> p in Taken(r[|ts|].seats);
  }

  /** Step 5 over the sorted clusters, in order. */
  function PlaceClusters(ts: seq<Table>, clusters: seq<seq<string>>, capacity: int): (r: seq<Table>)
    ensures Grows(ts, r, capacity)
    ensures (forall c, k :: c in clusters && 0 <= k < |c| ==> c[k] != "") && AllConsistent(ts) ==> AllConsistent(r)
    decreases |clusters|
  {
    if |clusters| == 0 then ts
    else
      var ts1 := PlaceCluster(ts, clusters[0], capacity);
      var r := PlaceClusters(ts1, clusters[1..], capacity);
      GrowsTrans(ts, ts1, r, capacity);
      assert (forall c, k :: c in clusters && 0 <= k < |c| ==> c[k] != "") && AllConsistent(ts) ==> AllConsistent(r) by {
        if (forall c, k :: c in clusters && 0 <= k < |c| ==> c[k] != "") && AllConsistent(ts) {
          assert clusters[0] in clusters;
          PlaceClusterConsistent(ts, clusters[0], capacity);
          assert forall c :: c in clusters[1..] ==> c in clusters;
        }
      }
      r
  }

  /** Every member of a cluster that fits in a new table is seated after step 5; so is everyone seated before. */
  lemma {:induction false} PlaceClustersSeats(ts: seq<Table>, clusters: seq<seq<string>>, capacity: int, p: string)
    requires SeatedIn(ts, p) || exists c :: c in clusters && |c| <= SeatCount(capacity) && p in c
    ensures SeatedIn(PlaceClusters(ts, clusters, capacity), p)
    decreases |clusters|
  {
    if |clusters| > 0 {
      var ts1 := PlaceCluster(ts, clusters[0], capacity);
      if SeatedIn(ts, p) {
        GrowsKeepsSeated(ts, ts1, capacity, p);
      } else if |clusters[0]| <= SeatCount(capacity) && p in clusters[0] {
        PlaceClusterSeatsAll(ts, clusters[0], capacity);
      } else {
        var c :| c in clusters && |c| <= SeatCount(capacity) && p in c;
        assert c in clusters[1..];
      }
      if SeatedIn(ts1, p) {
        PlaceClustersSeats(ts1, clusters[1..], capacity, p);
      } else {
        var c :| c in clusters && |c| <= SeatCount(capacity) && p in c;
        assert c in clusters[1..];
        PlaceClustersSeats(ts1, clusters[1..], capacity, p);
      }
    }
  }

  /**
    One iteration of step 6 of `organise`: the person goes into the first
    suitable table; if there is none, into a new table of the configured
    capacity appended at the end.
   */
  function SeatOne(ts: seq<Table>, person: string, prefs: Preferences, capacity: int): (r: seq<Table>)
    ensures Grows(ts, r, capacity) && |r| <= |ts| + 1
    ensures FindTableForPerson(ts, person, prefs, false).Some? ==> |r| == |ts|
    ensures FindTableForPerson(ts, person, prefs, false).None? ==> |r| == |ts| + 1 && r[..|ts|] == ts
    ensures person != "" && AllConsistent(ts) ==> AllConsistent(r)
    ensures person != "" && AllConsistent(ts) && capacity >= 1 ==> SeatedIn(r, person)
    ensures var f := FindTableForPerson(ts, person, prefs, false);
      f.Some? ==> (f.value < |ts|
        && (forall j :: 0 <= j < |ts| && j != f.value ==> r[j] == ts[j])
        && (Consistent(ts[f.value]) ==> person in Taken(r[f.value].seats)))
    ensures FindTableForPerson(ts, person, prefs, false).None? && capacity >= 1 ==> person in Taken(r[|ts|].seats)
  {
    match FindTableForPerson(ts, person, prefs, false)
    case Some(i) =>
      SeatInto(ts, i, person, capacity);
      ts[i := AssignSeat(ts[i], person).0]
    case None =>
      SeatAtEnd(ts, person, capacity);
      ts + [AssignSeat(NewTable(TableName(|ts| + 1), capacity, None), person).0]
  }

  /** Seating the person at table `i`, which has an empty seat. */
  lemma SeatInto(ts: seq<Table>, i: nat, person: string, capacity: int)
    requires i < |ts| && exists j :: 0 <= j < |ts[i].seats| && ts[i].seats[j].occupant == ""
    ensures var r := ts[i := AssignSeat(ts[i], person).0];
      && Grows(ts, r, capacity)
      && (person != "" && AllConsistent(ts) ==> AllConsistent(r) && SeatedIn(r, person))
      && (forall j :: 0 <= j < |ts| && j != i ==> r[j] == ts[j])
      && (Consistent(ts[i]) ==> person in Taken(r[i].seats))
  {
    var r := ts[i := AssignSeat(ts[i], person).0];
    SeatAtFreeSpot(ts[i], person);
    if person != "" && AllConsistent(ts) {
      assert Consistent(ts[i]);
      assert person in Taken(r[i].seats);
    }
  }

  /** Seating the person at a new table appended at the end. */
  lemma SeatAtEnd(ts: seq<Table>, person: string, capacity: int)
    ensures var r := ts + [AssignSeat(NewTable(TableName(|ts| + 1), capacity, None), person).0];
      && Grows(ts, r, capacity) && |r| == |ts| + 1 && r[..|ts|] == ts
      && (person != "" && AllConsistent(ts) ==> AllConsistent(r))
      && (capacity >= 1 ==> SeatedIn(r, person) && person in Taken(r[|ts|].seats))
  {
    var added := NewTable(TableName(|ts| + 1), capacity, None);
    var r := ts + [AssignSeat(added, person).0];
    assert r[..|ts|] == ts;
    assert r[|ts|] == AssignSeat(added, person).0;
    if capacity >= 1 {
      SeatAtNewTable(added, person);
      assert person in Taken(r[|ts|].seats);
    }
  }

  /** On a consistent table with an empty seat, `assign_seat` seats the person. */
  lemma SeatAtFreeSpot(t: Table, person: string)
    requires exists j :: 0 <= j < |t.seats| && t.seats[j].occupant == ""
    ensures Consistent(t) ==> AssignSeat(t, person).1 && person in Taken(AssignSeat(t, person).0.seats)
  {
    if Consistent(t) {
      var j :| 0 <= j < |t.seats| && t.seats[j].occupant == "";
      assert t.seats[j].isfree;
      AssignSeatTakes(t, person);
    }
  }

  /** A new empty table with at least one seat takes the person. */
  lemma SeatAtNewTable(t: Table, person: string)
    requires AllEmpty(t) && Consistent(t) && LeftCapacity(t) == |t.seats|
    ensures |t.seats| > 0 ==> person in Taken(AssignSeat(t, person).0.seats)
  {
    if |t.seats| > 0 {
      assert t.seats[0].occupant == "";
      SeatAtFreeSpot(t, person);
    }
  }

  /** Step 6 over the shuffled remaining people, in order. */
  function SeatIndividuals(ts: seq<Table>, order: seq<string>, prefs: Preferences, capacity: int): (r: seq<Table>)
    ensures Grows(ts, r, capacity)
    ensures "" !in order && AllConsistent(ts) ==> AllConsistent(r)
    ensures "" !in order && AllConsistent(ts) && capacity >= 1 ==>
      forall p :: (p in order || SeatedIn(ts, p)) ==> SeatedIn(r, p)
    decreases |order|
  {
    if |order| == 0 then ts
    else
      var ts1 := SeatOne(ts, order[0], prefs, capacity);
      var r := SeatIndividuals(ts1, order[1..], prefs, capacity);
      GrowsTrans(ts, ts1, r, capacity);
      assert "" !in order && AllConsistent(ts) && capacity >= 1 ==>
        forall p :: (p in order || SeatedIn(ts, p)) ==> SeatedIn(r, p) by {
        if "" !in order && AllConsistent(ts) && capacity >= 1 {
          forall p | p in order || SeatedIn(ts, p)
            ensures SeatedIn(r, p)
          {
            if SeatedIn(ts, p) {
              GrowsKeepsSeated(ts, ts1, capacity, p);
            } else if p != order[0] {
              assert p in order[1..];
            }
          }
        }
      }
      r
  }
}

=== FILE: prefs.dfy ===
/**
  The preferences dictionary: `preferences["with"]` and `preferences["without"]`,
  each a Python dict from a person to a list of names.
 */
module Prefs {

  /** A dict from a person to a list of names, as its entries in insertion order. */
  type PrefMap = seq<(string, seq<string>)>

  /** The two preference dicts; a missing one reads as `{}`. */
  datatype Preferences = Preferences(withMap: PrefMap, withoutMap: PrefMap)

  /** `p in d`. */
  predicate HasKey(d: PrefMap, p: string) {
    exists i :: 0 <= i < |d| && d[i].0 == p
  }

  /** `d.get(p, [])`: the list stored under the first entry for `p`. */
  function Lookup(d: PrefMap, p: string): (r: seq<string>)
    ensures !HasKey(d, p) ==> r == []
    ensures HasKey(d, p) ==>
      exists i :: 0 <= i < |d| && d[i].0 == p && r == d[i].1 && forall j :: 0 <= j < i ==> d[j].0 != p
  {
    if |d| == 0 then []
    else if d[0].0 == p then d[0].1
    else
      var r := Lookup(d[1..], p);
      assert HasKey(d, p) ==> HasKey(d[1..], p) by {
        if HasKey(d, p) {
          var i :| 0 <= i < |d| && d[i].0 == p;
          assert d[1..][i - 1].0 == p;
        }
      }
      assert HasKey(d, p) ==> exists i :: 0 <= i < |d| && d[i].0 == p && r == d[i].1 && forall j :: 0 <= j < i ==> d[j].0 != p by {
        if HasKey(d, p) {
          var i :| 0 <= i < |d[1..]| && d[1..][i].0 == p && r == d[1..][i].1 && forall j :: 0 <= j < i ==> d[1..][j].0 != p;
          assert d[i + 1] == d[1..][i];
          assert forall j :: 1 <= j < i + 1 ==> d[j] == d[1..][j - 1];
        }
      }
      r
  }

  /** The pairs `(person, other)` one entry contributes, in list order. */
  function EntryPairs(person: string, others: seq<string>): (ps: seq<(string, string)>)
    ensures |ps| == |others|
    ensures forall k :: 0 <= k < |ps| ==> ps[k] == (person, others[k])
  {
    seq(|others|, k requires 0 <= k < |others| => (person, others[k]))
  }

  /** Some entry of `d` has key `a` and lists `b`. */
  predicate Lists(d: PrefMap, a: string, b: string) {
    exists i :: 0 <= i < |d| && d[i].0 == a && b in d[i].1
  }

  lemma ListsCons(d: PrefMap, a: string, b: string)
    requires |d| > 0
    ensures Lists(d, a, b) <==> (a == d[0].0 && b in d[0].1) || Lists(d[1..], a, b)
  {
    if Lists(d, a, b) {
      var i :| 0 <= i < |d| && d[i].0 == a && b in d[i].1;
      if i > 0 {
        assert d[1..][i - 1] == d[i];
      }
    }
    if Lists(d[1..], a, b) {
      var i :| 0 <= i < |d[1..]| && d[1..][i].0 == a && b in d[1..][i].1;
      assert d[i + 1] == d[1..][i];
    }
  }

  lemma EntryPairsMember(person: string, others: seq<string>, a: string, b: string)
    ensures (a, b) in EntryPairs(person, others) <==> a == person && b in others
  {
    var head := EntryPairs(person, others);
    if a == person && b in others {
      var k :| 0 <= k < |others| && others[k] == b;
      assert head[k] == (a, b);
    }
  }

  /**
    The (person, listed name) pairs a nested loop over the entries and
    their lists visits, in visiting order.
   */
  function Pairs(d: PrefMap): (ps: seq<(string, string)>)
    ensures forall a, b :: (a, b) in ps <==> Lists(d, a, b)
  {
    if |d| == 0 then []
    else
      var head := EntryPairs(d[0].0, d[0].1);
      var rest := Pairs(d[1..]);
      assert forall a, b :: (a, b) in head + rest <==> Lists(d, a, b) by {
        forall a, b
          ensures (a, b) in head + rest <==> Lists(d, a, b)
        {
          ListsCons(d, a, b);
          EntryPairsMember(d[0].0, d[0].1, a, b);
        }
      }
      head + rest
  }

  /** A person is free for balancing when neither preference dict has them as a key. */
  predicate IsFreePerson(prefs: Preferences, p: string) {
    !HasKey(prefs.withMap, p) && !HasKey(prefs.withoutMap, p)
  }
}

=== FILE: results.dfy ===
/** Option and Result wrappers shared by every module of the seating model. */
module Results {

  /** A value that may be absent (Python's `None`). */
  datatype Option<+T> = None | Some(value: T) {

    /** The wrapped value, or `default` when absent (`d.get(k, default)`). */
    function GetOr(default: T): T {
      match this
      case Some(v) => v
      case None => default
    }
  }

  /** Either a value or the exception the original code would raise. */
  datatype Result<+T, +E> = Success(value: T) | Failure(error: E) {

    predicate IsFailure() {
      Failure?
    }

    function PropagateFailure<U>(): Result<U, E>
      requires Failure?
    {
      Failure(error)
    }

    function Extract(): T
      requires Success?
    {
      value
    }
  }

  function Min(a: int, b: int): int {
    if a <= b then a else b
  }
}

/** The exceptions the seating engine can raise part-way through `organise`. */
module Errors {

  datatype EngineError =
      /** `set.remove` of a missing neighbour while pruning the graph (a `KeyError`). */
    | GraphKeyError(person: string)
      /** `total_people // num_tables` with no tables (a `ZeroDivisionError`). */
    | NoTables
      /** A balancer move reads `dest_table.name`, which a table lacks (an `AttributeError`). */
    | MissingNameAttribute
}

=== FILE: seqs.dfy ===
/**
  Concatenating per-element sequences, as a nested `for` loop that appends
  to one result list does.
 */
module Seqs {
  import opened Sorting

  /** `f(s[0]) + f(s[1]) + ...`. */
  function FlatMap<T, U>(s: seq<T>, f: T -> seq<U>): seq<U> {
    if |s| == 0 then [] else f(s[0]) + FlatMap(s[1..], f)
  }

  /** `FlatMap` distributes over concatenation. */
  lemma {:induction false} FlatMapAppend<T, U>(a: seq<T>, b: seq<T>, f: T -> seq<U>)
    ensures FlatMap(a + b, f) == FlatMap(a, f) + FlatMap(b, f)
  {
    if |a| == 0 {
      assert a + b == b;
    } else {
      assert (a + b)[0] == a[0];
      assert (a + b)[1..] == a[1..] + b;
      FlatMapAppend(a[1..], b, f);
    }
  }

  /** Reordering the outer sequence reorders the result and nothing more. */
  lemma {:induction false} FlatMapPermutation<T, U>(s: seq<T>, t: seq<T>, f: T -> seq<U>)
    requires multiset(s) == multiset(t)
    ensures multiset(FlatMap(s, f)) == multiset(FlatMap(t, f))
    decreases |s|
  {
    if |s| == 0 {
      assert |t| == |multiset(t)|;
    } else {
      var x := s[0];
      assert x in multiset(t);
      var i :| 0 <= i < |t| && t[i] == x;
      var before, after := t[..i], t[i + 1..];
      assert t == before + [x] + after;
      assert s == [x] + s[1..];
      assert multiset(s) == multiset{x} + multiset(s[1..]);
      assert multiset(t) == multiset(before) + multiset{x} + multiset(after);
      assert multiset(before + after) == multiset(before) + multiset(after);
      assert multiset(s[1..]) == multiset(s) - multiset{x};
      assert multiset(before + after) == multiset(t) - multiset{x};
      FlatMapPermutation(s[1..], before + after, f);
      FlatMapAppend(before, after, f);
      FlatMapAppend(before + [x], after, f);
      FlatMapAppend(before, [x], f);
      assert FlatMap([x], f) == f(x) by {
        assert [x][1..] == [];
      }
    }
  }

  /** Every element of the result comes from the image of some element of `s`. */
  lemma {:induction false} FlatMapOrigin<T, U>(s: seq<T>, f: T -> seq<U>, k: int)
    requires 0 <= k < |FlatMap(s, f)|
    ensures exists i :: 0 <= i < |s| && FlatMap(s, f)[k] in f(s[i])
  {
    var head := f(s[0]);
    var rest := FlatMap(s[1..], f);
    assert FlatMap(s, f) == head + rest;
    if k < |head| {
      assert FlatMap(s, f)[k] == head[k];
    } else {
      assert FlatMap(s, f)[k] == rest[k - |head|];
      FlatMapOrigin(s[1..], f, k - |head|);
      var i :| 0 <= i < |s[1..]| && rest[k - |head|] in f(s[1..][i]);
      assert s[1..][i] == s[i + 1];
    }
  }

  /**
    When every element of `f(x)` carries `x`'s key and the outer sequence is
    sorted by key, the result is sorted by the carried key.
   */
  lemma {:induction false} FlatMapSorted<T, U>(s: seq<T>, f: T -> seq<U>, key: T -> int, carried: U -> int)
    requires SortedBy(s, key)
    requires forall x, u :: x in s && u in f(x) ==> carried(u) == key(x)
    ensures SortedBy(FlatMap(s, f), carried)
  {
    if |s| > 0 {
      var head := f(s[0]);
      var rest := FlatMap(s[1..], f);
      var r := FlatMap(s, f);
      assert r == head + rest;
      assert SortedBy(s[1..], key);
      FlatMapSorted(s[1..], f, key, carried);
      forall l | |head| <= l < |r|
        ensures key(s[0]) <= carried(r[l])
      {
        FlatMapOrigin(s[1..], f, l - |head|);
        var i :| 0 <= i < |s[1..]| && rest[l - |head|] in f(s[1..][i]);
        assert s[1..][i] == s[i + 1];
        assert r[l] == rest[l - |head|];
      }
      forall k, l | 0 <= k < l < |r|
        ensures carried(r[k]) <= carried(r[l])
      {
        if k >= |head| {
          assert r[k] == rest[k - |head|] && r[l] == rest[l - |head|];
        } else if l < |head| {
          assert r[k] in head && r[l] in head;
        } else {
          assert r[k] in head;
        }
      }
    }
  }
}

=== FILE: snapshot.dfy ===
/**
  `SeatingSnapshot` of src/snapshot.py: the read-only view of an organiser
  that export code turns into one row per seated person.
 */
module Snapshot {
  import opened Results
  import opened Strings
  import opened Tables
  import opened Prefs
  import opened Sorting
  import opened Placement
  import opened Engine
  import opened Seqs

  /** The "Cluster" column: a 1-based cluster number, or `""` for someone in no cluster. */
  datatype ClusterCell = NoCluster | ClusterId(id: nat)

  /** One exported row: Name, Table, WithPref, WithoutPref, Cluster. */
  datatype Row = Row(name: string, table: int, withPref: string, withoutPref: string, cluster: ClusterCell)

  /** The `ValueError` raised for a table name that does not end in an integer. */
  datatype SnapshotError = InvalidTableName(tableName: string)

  /**
    `_table_id`: the integer value of the name's last word. Fails when the name has no
    words (the `IndexError`) or its last word is not an integer literal of at
    most `MaxStrDigits` digits (the `ValueError`); both become the same `ValueError`.
   */
  function TableId(t: Table): (r: Result<int, SnapshotError>)
    ensures var ws := Words(t.name);
      r.Failure? <==> |ws| == 0 || !IsIntLiteral(ws[|ws| - 1])
    ensures r.Failure? ==> r.error == InvalidTableName(t.name)
    ensures var ws := Words(t.name);
      r.Success? ==> |ws| > 0 && ParseInt(ws[|ws| - 1]) == Some(r.value)
  {
    var ws := Words(t.name);
    if |ws| == 0 then Failure(InvalidTableName(t.name))
    else
      match ParseInt(ws[|ws| - 1])
      case None => Failure(InvalidTableName(t.name))
      case Some(n) => Success(n)
  }

  /** Digits are not whitespace. */
  lemma DigitsNoSpace(s: string)
    requires AllDigits(s)
    ensures NoSpace(s)
  {
    forall i | 0 <= i < |s|
      ensures !IsSpace(s[i])
    {
      assert IsDigit(s[i]);
    }
  }

  /** An integer literal is a single word. */
  lemma IntLiteralNoSpace(tok: string)
    requires IsIntLiteral(tok)
    ensures |tok| > 0 && NoSpace(tok)
  {
    if !AllDigits(tok) {
      DigitsNoSpace(tok[1..]);
      forall i | 0 <= i < |tok|
        ensures !IsSpace(tok[i])
      {
        if i > 0 {
          assert tok[i] == tok[1..][i - 1];
        }
      }
    } else {
      DigitsNoSpace(tok);
    }
  }

  /**
    A name whose words are any words followed by an integer literal has the
    literal's value as its id ("Room 12" is 12, "Table 007" is 7, "T -3" is -3).
   */
  lemma TableIdOfWords(t: Table, ws: seq<string>, tok: string)
    requires forall k :: 0 <= k < |ws| ==> |ws[k]| > 0 && NoSpace(ws[k])
    requires IsIntLiteral(tok)
    requires t.name == Unwords(ws + [tok])
    ensures TableId(t) == Success(ParseInt(tok).value)
  {
    IntLiteralNoSpace(tok);
    var all := ws + [tok];
    assert forall k :: 0 <= k < |all| ==> |all[k]| > 0 && NoSpace(all[k]);
    WordsOfUnwords(all);
    assert Words(t.name)[|all| - 1] == tok;
  }

  /**
    A table named as `organise` names the `n`-th table has id `n` (when `n`
    has no more digits than `int()` accepts).
   */
  lemma TableIdOfTableName(t: Table, n: nat)
    requires t.name == TableName(n) && |NatToString(n)| <= MaxStrDigits
    ensures TableId(t) == Success(n)
  {
    var digits := NatToString(n);
    assert Unwords(["Table", digits]) == "Table" + " " + Unwords([digits]);
    assert ["Table"] + [digits] == ["Table", digits];
    ParseIntOfNatToString(n);
    TableIdOfWords(t, ["Table"], digits);
  }

  /** The id used as the sort key; only read once every id is known to parse. */
  function TableKey(t: Table): int {
    match TableId(t)
    case Success(n) => n
    case Failure(_) => 0
  }

  /**
    `_tables_sorted`: the tables in order of id, equal ids keeping their
    order. Python computes every key before sorting, so the first table (in
    list order) whose name does not parse raises.
   */
  function TablesSorted(ts: seq<Table>): (r: Result<seq<Table>, SnapshotError>)
    ensures r.Failure? <==> exists i :: 0 <= i < |ts| && TableId(ts[i]).Failure?
    ensures r.Failure? ==> (exists i :: 0 <= i < |ts| && TableId(ts[i]) == Failure(r.error)
                                && forall k :: 0 <= k < i ==> TableId(ts[k]).Success?)
    ensures r.Success? ==> forall k :: 0 <= k < |ts| ==> TableId(ts[k]) == Success(TableKey(ts[k]))
    ensures r.Success? ==> multiset(r.value) == multiset(ts)
    ensures r.Success? ==> forall i, j :: 0 <= i < j < |r.value| ==> TableKey(r.value[i]) <= TableKey(r.value[j])
    ensures r.Success? ==> forall k :: KeyClass(r.value, TableKey, k) == KeyClass(ts, TableKey, k)
  {
    match FirstWhere(ts, (t: Table) => TableId(t).Failure?)
    case Some(i) => Failure(TableId(ts[i]).error)
    case None =>
      var sorted := SortBy(ts, TableKey);
      assert SortedBy(sorted, TableKey);
      Success(sorted)
  }

  /** `i` is the last cluster (0-based) holding `p`. */
  ghost predicate LastCluster(clusters: seq<seq<string>>, p: string, i: int) {
    && 0 <= i < |clusters|
    && p in clusters[i]
    && forall j :: i < j < |clusters| ==> p !in clusters[j]
  }

  /**
    The cluster numbers of `clusters`, counted from 1; a name in several
    clusters keeps the number of the last one, as later assignments to the
    dict overwrite earlier ones.
   */
  function ClusterMapOf(clusters: seq<seq<string>>): (m: map<string, nat>)
    ensures forall p :: p in m ==> 1 <= m[p] <= |clusters|
  {
    if |clusters| == 0 then map[]
    else
      Stamp(ClusterMapOf(clusters[..|clusters| - 1]), clusters[|clusters| - 1], |clusters|)
  }

  /** `m` with each of `names` set to `n`. */
  function Stamp(m: map<string, nat>, names: seq<string>, n: nat): (r: map<string, nat>)
    ensures forall p :: p in r <==> p in m || p in names
    ensures forall p :: p in r ==> r[p] == if p in names then n else m[p]
  {
    if |names| == 0 then m
    else
      var pre := names[..|names| - 1];
      assert forall p :: p in names <==> p in pre || p == names[|names| - 1];
      Stamp(m, pre, n)[names[|names| - 1] := n]
  }

  /** A name has a number exactly when some cluster holds it, and the number is that of the last such cluster. */
  lemma {:induction false} ClusterMapOfEntry(clusters: seq<seq<string>>, p: string)
    ensures p in ClusterMapOf(clusters) <==> exists i :: 0 <= i < |clusters| && p in clusters[i]
    ensures p in ClusterMapOf(clusters) ==> LastCluster(clusters, p, ClusterMapOf(clusters)[p] - 1)
  {
    var n := |clusters|;
    if n > 0 {
      var pre, last := clusters[..n - 1], clusters[n - 1];
      var m0 := ClusterMapOf(pre);
      var m := ClusterMapOf(clusters);
      assert m == Stamp(m0, last, n);
      ClusterMapOfEntry(pre, p);
      if p in last {
        assert m[p] == n;
        assert LastCluster(clusters, p, n - 1);
      } else if p in m0 {
        var k := m0[p] - 1;
        assert LastCluster(pre, p, k) && m[p] == m0[p];
        assert clusters[k] == pre[k];
        forall j | k < j < n
          ensures p !in clusters[j]
        {
          if j < n - 1 {
            assert clusters[j] == pre[j];
          }
        }
      } else {
        assert p !in m;
        forall i | 0 <= i < n
          ensures p !in clusters[i]
        {
          if i < n - 1 {
            assert clusters[i] == pre[i];
          }
        }
      }
    }
  }

  /** With disjoint clusters, each member's number is that of its own cluster. */
  lemma ClusterMapOfDisjoint(clusters: seq<seq<string>>, i: int, p: string)
    requires forall i, j, x :: 0 <= i < j < |clusters| && x in clusters[i] ==> x !in clusters[j]
    requires 0 <= i < |clusters| && p in clusters[i]
    ensures p in ClusterMapOf(clusters) && ClusterMapOf(clusters)[p] == i + 1
  {
    ClusterMapOfEntry(clusters, p);
    var m := ClusterMapOf(clusters);
    assert p in clusters[m[p] - 1];
  }

  /** `_build_cluster_map`: empty before the first `organise`, which is when the object has no `clusters`. */
  function BuildClusterMap(lastRun: Option<RunReport>): (m: map<string, nat>)
    ensures lastRun.None? ==> m == map[]
    ensures lastRun.Some? ==> forall p :: p in m <==> exists i :: 0 <= i < |lastRun.value.clusters| && p in lastRun.value.clusters[i]
    ensures lastRun.Some? ==> forall p :: p in m ==> 1 <= m[p] <= |lastRun.value.clusters|
    ensures lastRun.Some? ==> forall p :: p in m ==> LastCluster(lastRun.value.clusters, p, m[p] - 1)
  {
    match lastRun
    case None => map[]
    case Some(report) =>
      var m := ClusterMapOf(report.clusters);
      forall p
        ensures p in m <==> exists i :: 0 <= i < |report.clusters| && p in report.clusters[i]
        ensures p in m ==> LastCluster(report.clusters, p, m[p] - 1)
      {
        ClusterMapOfEntry(report.clusters, p);
      }
      m
  }

  /** The name's cluster number, or the empty cell when it has none. */
  function CellOf(m: map<string, nat>, name: string): (c: ClusterCell)
    ensures c.ClusterId? <==> name in m
    ensures c.ClusterId? ==> c.id == m[name]
  {
    if name in m then ClusterId(m[name]) else NoCluster
  }

  /**
    What a Cluster cell says about `name`: empty before any run or when no
    cluster of the last run holds the name, else the 1-based number of the
    last cluster holding it.
   */
  ghost predicate CellMeans(c: ClusterCell, lastRun: Option<RunReport>, name: string) {
    && (c.NoCluster? <==> lastRun.None? || forall i :: 0 <= i < |lastRun.value.clusters| ==> name !in lastRun.value.clusters[i])
    && (c.ClusterId? ==> lastRun.Some? && LastCluster(lastRun.value.clusters, name, c.id - 1))
  }

  /** The cell `_build_cluster_map` gives a name means what the Cluster column promises. */
  lemma ClusterCellOf(lastRun: Option<RunReport>, name: string)
    ensures CellMeans(CellOf(BuildClusterMap(lastRun), name), lastRun, name)
  {
  }

  /** The row built for `name` seated at a table with id `id`. */
  function MakeRow(name: string, id: int, prefs: Preferences, m: map<string, nat>): Row {
    Row(name, id,
        Join(Lookup(prefs.withMap, name), ", "),
        Join(Lookup(prefs.withoutMap, name), ", "),
        CellOf(m, name))
  }

  /** The row's columns are those of its name under the preferences and the cluster map. */
  ghost predicate RowFor(row: Row, prefs: Preferences, m: map<string, nat>) {
    && row.withPref == Join(Lookup(prefs.withMap, row.name), ", ")
    && row.withoutPref == Join(Lookup(prefs.withoutMap, row.name), ", ")
    && row.cluster == CellOf(m, row.name)
  }

  /** The non-empty occupants of every table, table after table, in seat order. */
  function AllAssigned(ts: seq<Table>): seq<string> {
    FlatMap(ts, AssignedNames)
  }

  /** The names of `rows`, in order. */
  function RowNames(rows: seq<Row>): (ns: seq<string>)
    ensures |ns| == |rows| && forall k :: 0 <= k < |rows| ==> ns[k] == rows[k].name
  {
    seq(|rows|, k requires 0 <= k < |rows| => rows[k].name)
  }

  /** The rows of one table: its non-empty seats, in seat order, each with the table's id. */
  function TableRows(t: Table, prefs: Preferences, m: map<string, nat>): (rows: seq<Row>)
    ensures RowNames(rows) == AssignedNames(t)
    ensures forall row :: row in rows ==> row.table == TableKey(t) && RowFor(row, prefs, m)
  {
    var names := AssignedNames(t);
    seq(|names|, k requires 0 <= k < |names| => MakeRow(names[k], TableKey(t), prefs, m))
  }

  /** `TableRows` under fixed preferences and cluster map. */
  function RowsOfTable(prefs: Preferences, m: map<string, nat>): Table -> seq<Row> {
    t => TableRows(t, prefs, m)
  }

  /** The loop of `rows` over already sorted tables. */
  function RowsOf(sorted: seq<Table>, prefs: Preferences, m: map<string, nat>): seq<Row> {
    FlatMap(sorted, RowsOfTable(prefs, m))
  }

  /** The names of the rows are the seated names, table after table. */
  lemma {:induction false} RowsOfNames(ts: seq<Table>, prefs: Preferences, m: map<string, nat>)
    ensures RowNames(RowsOf(ts, prefs, m)) == AllAssigned(ts)
  {
    if |ts| > 0 {
      var head := TableRows(ts[0], prefs, m);
      var rest := RowsOf(ts[1..], prefs, m);
      assert RowsOf(ts, prefs, m) == head + rest;
      RowsOfNames(ts[1..], prefs, m);
      assert RowNames(head + rest) == RowNames(head) + RowNames(rest);
    }
  }

  /** `rows`' ids in terms of the table each row comes from. */
  lemma RowsOfOrigin(ts: seq<Table>, prefs: Preferences, m: map<string, nat>, k: int)
    requires 0 <= k < |RowsOf(ts, prefs, m)|
    ensures var row := RowsOf(ts, prefs, m)[k];
      RowFor(row, prefs, m) && exists i :: 0 <= i < |ts| && row.table == TableKey(ts[i]) && row.name in AssignedNames(ts[i])
  {
    var row := RowsOf(ts, prefs, m)[k];
    FlatMapOrigin(ts, RowsOfTable(prefs, m), k);
    var i :| 0 <= i < |ts| && row in TableRows(ts[i], prefs, m);
    var rows := TableRows(ts[i], prefs, m);
    var j :| 0 <= j < |rows| && rows[j] == row;
    assert RowNames(rows)[j] == row.name;
  }

  /**
    `rows`: one row per non-empty seat, tables in order of id (and in list
    order for equal ids), seats in order; a table name that does not parse
    raises the `ValueError` before any row is made.
   */
  function Rows(os: OpenSpace, prefs: Preferences): (r: Result<seq<Row>, SnapshotError>)
    ensures r.Failure? <==> exists i :: 0 <= i < |os.tables| && TableId(os.tables[i]).Failure?
    ensures r.Failure? ==> exists i :: 0 <= i < |os.tables| && TableId(os.tables[i]) == Failure(r.error)
  {
    match TablesSorted(os.tables)
    case Failure(e) => Failure(e)
    case Success(sorted) => Success(RowsOf(sorted, prefs, BuildClusterMap(os.lastRun)))
  }

  /** A successful `rows` lists every seated name exactly as often as it is seated. */
  lemma RowsArePermutation(os: OpenSpace, prefs: Preferences)
    requires Rows(os, prefs).Success?
    ensures multiset(RowNames(Rows(os, prefs).value)) == multiset(AllAssigned(os.tables))
  {
    var sorted := TablesSorted(os.tables).value;
    RowsOfNames(sorted, prefs, BuildClusterMap(os.lastRun));
    FlatMapPermutation(sorted, os.tables, AssignedNames);
  }

  /** A successful `rows` lists table ids in non-decreasing order. */
  lemma RowsOrdered(os: OpenSpace, prefs: Preferences)
    requires Rows(os, prefs).Success?
    ensures var rows := Rows(os, prefs).value;
      forall k, l :: 0 <= k < l < |rows| ==> rows[k].table <= rows[l].table
  {
    var sorted := TablesSorted(os.tables).value;
    var m := BuildClusterMap(os.lastRun);
    var f := RowsOfTable(prefs, m);
    forall x, u | x in sorted && u in f(x)
      ensures u.table == TableKey(x)
    {
      assert u in TableRows(x, prefs, m);
    }
    FlatMapSorted(sorted, f, TableKey, (row: Row) => row.table);
  }

  /**
    Each row of a successful `rows` carries the id of a table whose name
    parses to it and that seats the row's name, and the preference and
    cluster columns of that name.
   */
  lemma RowsAtTheirTables(os: OpenSpace, prefs: Preferences, k: int)
    requires Rows(os, prefs).Success?
    requires 0 <= k < |Rows(os, prefs).value|
    ensures var row := Rows(os, prefs).value[k];
      && RowFor(row, prefs, BuildClusterMap(os.lastRun))
      && exists i :: 0 <= i < |os.tables| && TableId(os.tables[i]) == Success(row.table) && row.name in AssignedNames(os.tables[i])
  {
    var sorted := TablesSorted(os.tables).value;
    var row := Rows(os, prefs).value[k];
    RowsOfOrigin(sorted, prefs, BuildClusterMap(os.lastRun), k);
    var i :| 0 <= i < |sorted| && row.table == TableKey(sorted[i]) && row.name in AssignedNames(sorted[i]);
    var j := SortedOrigin(os.tables, sorted, i);
  }

  /** Where an element of a reordering sits in the original. */
  lemma SortedOrigin(ts: seq<Table>, sorted: seq<Table>, i: int) returns (j: int)
    requires multiset(sorted) == multiset(ts) && 0 <= i < |sorted|
    ensures 0 <= j < |ts| && ts[j] == sorted[i]
  {
    assert sorted[i] in multiset(ts);
    j :| 0 <= j < |ts| && ts[j] == sorted[i];
  }

  /** The Cluster column of a successful `rows` means what `CellMeans` says. */
  lemma RowClusterCell(os: OpenSpace, prefs: Preferences, k: int)
    requires Rows(os, prefs).Success?
    requires 0 <= k < |Rows(os, prefs).value|
    ensures var row := Rows(os, prefs).value[k];
      CellMeans(row.cluster, os.lastRun, row.name)
  {
    var row := Rows(os, prefs).value[k];
    RowsAtTheirTables(os, prefs, k);
    ClusterCellOf(os.lastRun, row.name);
  }
}

=== FILE: sorting.dfy ===
/**
  Python's `sorted(xs, key=...)` on an integer key: a stable sort. It is
  used on the clusters (largest first) and on the tables (by numeric id).
 */
module Sorting {

  /** Keys never decrease along `s`. */
  ghost predicate SortedBy<T>(s: seq<T>, key: T -> int) {
    forall i, j :: 0 <= i < j < |s| ==> key(s[i]) <= key(s[j])
  }

  /** The elements of `s` whose key is `k`, in their order in `s`. */
  function KeyClass<T>(s: seq<T>, key: T -> int, k: int): seq<T> {
    if |s| == 0 then []
    else KeyClass(s[..|s| - 1], key, k) + (if key(s[|s| - 1]) == k then [s[|s| - 1]] else [])
  }

  /** Inserts `x` after every element whose key is at most `key(x)`. */
  function Insert<T>(s: seq<T>, x: T, key: T -> int): (r: seq<T>)
    ensures |r| == |s| + 1
    ensures multiset(r) == multiset(s) + multiset{x}
  {
    if |s| == 0 then [x]
    else if key(s[|s| - 1]) <= key(x) then s + [x]
    else
      var pre := s[..|s| - 1];
      assert s == pre + [s[|s| - 1]];
      Insert(pre, x, key) + [s[|s| - 1]]
  }

  /** Inserting under a common bound on the keys keeps the bound. */
  lemma {:induction false} InsertBounded<T>(s: seq<T>, x: T, key: T -> int, b: int)
    requires forall i :: 0 <= i < |s| ==> key(s[i]) <= b
    requires key(x) <= b
    ensures forall i :: 0 <= i < |Insert(s, x, key)| ==> key(Insert(s, x, key)[i]) <= b
  {
    if |s| > 0 && key(s[|s| - 1]) > key(x) {
      InsertBounded(s[..|s| - 1], x, key, b);
    }
  }

  /** Inserting into a sorted sequence keeps it sorted. */
  lemma {:induction false} InsertSorted<T>(s: seq<T>, x: T, key: T -> int)
    requires SortedBy(s, key)
    ensures SortedBy(Insert(s, x, key), key)
  {
    if |s| > 0 && key(s[|s| - 1]) > key(x) {
      var last := s[|s| - 1];
      var pre := s[..|s| - 1];
      InsertSorted(pre, x, key);
      InsertBounded(pre, x, key, key(last));
    }
  }

  /** Inserting `x` adds it at the end of its key class and leaves the other classes alone. */
  lemma {:induction false} InsertKeyClass<T>(s: seq<T>, x: T, key: T -> int, k: int)
    ensures KeyClass(Insert(s, x, key), key, k) == KeyClass(s, key, k) + (if key(x) == k then [x] else [])
  {
    if |s| == 0 {
      assert [x][..0] == [];
    } else if key(s[|s| - 1]) <= key(x) {
      var r := s + [x];
      assert r[..|r| - 1] == s;
    } else {
      var last := s[|s| - 1];
      var pre := s[..|s| - 1];
      var ins := Insert(pre, x, key);
      var r := ins + [last];
      InsertKeyClass(pre, x, key, k);
      assert r[..|r| - 1] == ins;
    }
  }

  /**
    `sorted(s, key=key)`: sorted by key, a permutation of `s`, and stable —
    elements with equal keys keep their relative order.
   */
  function SortBy<T>(s: seq<T>, key: T -> int): (r: seq<T>)
    ensures |r| == |s|
    ensures SortedBy(r, key)
    ensures multiset(r) == multiset(s)
    ensures forall k :: KeyClass(r, key, k) == KeyClass(s, key, k)
  {
    if |s| == 0 then []
    else
      var pre := s[..|s| - 1];
      var sorted := SortBy(pre, key);
      assert s == pre + [s[|s| - 1]];
      InsertSorted(sorted, s[|s| - 1], key);
      forall k
        ensures KeyClass(Insert(sorted, s[|s| - 1], key), key, k) == KeyClass(s, key, k)
      {
        InsertKeyClass(sorted, s[|s| - 1], key, k);
      }
      Insert(sorted, s[|s| - 1], key)
  }
}

=== FILE: strings.dfy ===
/**
  Text helpers the seating code relies on: Python's `str.split()` with no
  argument, `int()` on a token, `f"{n}"` on a natural number and `sep.join`.
 */
module Strings {
  import opened Results

  /** `str.isspace()`: the code points `str.split()` with no argument splits on. */
  predicate IsSpace(c: char) {
    var n := c as int;
    || (9 <= n <= 13)
    || (28 <= n <= 32)
    || n == 0x85 || n == 0xA0 || n == 0x1680
    || (0x2000 <= n <= 0x200A)
    || n == 0x2028 || n == 0x2029 || n == 0x202F || n == 0x205F || n == 0x3000
  }

  predicate NoSpace(s: string) {
    forall i :: 0 <= i < |s| ==> !IsSpace(s[i])
  }

  /** Length of the longest whitespace-free prefix of `s`. */
  function RunLength(s: string): (n: nat)
    ensures n <= |s|
    ensures NoSpace(s[..n])
    ensures n < |s| ==> IsSpace(s[n])
  {
    if |s| == 0 || IsSpace(s[0]) then 0
    else
      var m := RunLength(s[1..]);
      assert s[..1 + m] == [s[0]] + s[1..][..m];
      1 + m
  }

  /** `s.split()`: the maximal runs of non-whitespace characters, in order. */
  function Words(s: string): (ws: seq<string>)
    ensures forall k :: 0 <= k < |ws| ==> |ws[k]| > 0 && NoSpace(ws[k])
    decreases |s|
  {
    if |s| == 0 then []
    else if IsSpace(s[0]) then Words(s[1..])
    else
      var n := RunLength(s);
      [s[..n]] + Words(s[n..])
  }

  /** A text has no words exactly when it is all whitespace. */
  lemma {:induction false} WordsEmpty(s: string)
    ensures |Words(s)| == 0 <==> forall i :: 0 <= i < |s| ==> IsSpace(s[i])
    decreases |s|
  {
    if |s| > 0 && IsSpace(s[0]) {
      WordsEmpty(s[1..]);
      assert forall i :: 1 <= i < |s| ==> s[i] == s[1..][i - 1];
    }
  }

  /** The leading run of `a` is unchanged by what follows when it ends inside `a` or at whitespace. */
  lemma {:induction false} RunLengthAppend(a: string, rest: string)
    requires RunLength(a) < |a| || |rest| == 0 || IsSpace(rest[0])
    ensures RunLength(a + rest) == RunLength(a)
    decreases |a|
  {
    if |a| == 0 {
      assert a + rest == rest;
    } else if IsSpace(a[0]) {
      assert (a + rest)[0] == a[0];
    } else {
      assert (a + rest)[0] == a[0];
      assert (a + rest)[1..] == a[1..] + rest;
      RunLengthAppend(a[1..], rest);
    }
  }

  /** Whitespace separates: splitting at a whitespace character splits the words. */
  lemma {:induction false} WordsSplit(a: string, c: char, b: string)
    requires IsSpace(c)
    ensures Words(a + [c] + b) == Words(a) + Words(b)
    decreases |a|
  {
    var s := a + [c] + b;
    if |a| == 0 {
      assert s[0] == c && s[1..] == b;
    } else if IsSpace(a[0]) {
      assert s[0] == a[0];
      assert s[1..] == a[1..] + [c] + b;
      WordsSplit(a[1..], c, b);
    } else {
      WordsSplitAfterWord(a, c, b);
    }
  }

  /** The case of `WordsSplit` where `a` opens with a word. */
  lemma {:induction false} WordsSplitAfterWord(a: string, c: char, b: string)
    requires IsSpace(c) && |a| > 0 && !IsSpace(a[0])
    ensures Words(a + [c] + b) == Words(a) + Words(b)
    decreases |a|, 0
  {
    var s := a + [c] + b;
    var m := RunLength(a);
    assert s == a + ([c] + b);
    RunLengthAppend(a, [c] + b);
    assert s[0] == a[0];
    assert Words(s) == [s[..m]] + Words(s[m..]);
    assert Words(a) == [a[..m]] + Words(a[m..]);
    assert s[..m] == a[..m];
    assert s[m..] == a[m..] + [c] + b;
    WordsSplit(a[m..], c, b);
  }

  /** `" ".join(ws)`: the words separated by single blanks. */
  function Unwords(ws: seq<string>): string {
    if |ws| == 0 then ""
    else if |ws| == 1 then ws[0]
    else ws[0] + " " + Unwords(ws[1..])
  }

  /** The run at the front of a word followed by a blank (or nothing) is the word. */
  lemma {:induction false} RunLengthOfWord(w: string, rest: string)
    requires NoSpace(w)
    requires |rest| == 0 || IsSpace(rest[0])
    ensures RunLength(w + rest) == |w|
    decreases |w|
  {
    if |w| == 0 {
      assert w + rest == rest;
    } else {
      var s := w + rest;
      assert s[0] == w[0] && !IsSpace(s[0]);
      assert s[1..] == w[1..] + rest;
      RunLengthOfWord(w[1..], rest);
      assert RunLength(s) == 1 + RunLength(s[1..]);
    }
  }

  /** Splitting words joined by blanks gives the words back. */
  lemma {:induction false} WordsOfUnwords(ws: seq<string>)
    requires forall k :: 0 <= k < |ws| ==> |ws[k]| > 0 && NoSpace(ws[k])
    ensures Words(Unwords(ws)) == ws
  {
    if |ws| == 1 {
      var w := ws[0];
      RunLengthOfWord(w, "");
      assert w + "" == w;
      assert w[..|w|] == w;
      assert w[|w|..] == "";
    } else if |ws| > 1 {
      var w := ws[0];
      var rest := " " + Unwords(ws[1..]);
      var s := w + rest;
      assert Unwords(ws) == s;
      RunLengthOfWord(w, rest);
      assert s[..|w|] == w;
      assert s[|w|..] == rest;
      assert rest[1..] == Unwords(ws[1..]);
      WordsOfUnwords(ws[1..]);
      assert Words(rest) == Words(Unwords(ws[1..]));
    }
  }

  predicate IsDigit(c: char) {
    '0' <= c <= '9'
  }

  predicate AllDigits(s: string) {
    forall i :: 0 <= i < |s| ==> IsDigit(s[i])
  }

  function DigitValue(c: char): nat
    requires IsDigit(c)
  {
    c as int - '0' as int
  }

  /** Decimal value of a string of ASCII digits (the empty string reads as 0). */
  function DigitsValue(ds: string): nat
    requires AllDigits(ds)
  {
    if |ds| == 0 then 0
    else DigitsValue(ds[..|ds| - 1]) * 10 + DigitValue(ds[|ds| - 1])
  }

  /**
    The default of `sys.get_int_max_str_digits()`: `int()` raises `ValueError`
    on a decimal literal with more digits than this.
   */
  const MaxStrDigits := 4300

  /**
    The token grammar accepted by `int()` here: an optional sign, then
    between one and `MaxStrDigits` ASCII digits.
   */
  predicate IsIntLiteral(tok: string) {
    || (0 < |tok| <= MaxStrDigits && AllDigits(tok))
    || (1 < |tok| <= MaxStrDigits + 1 && (tok[0] == '+' || tok[0] == '-') && AllDigits(tok[1..]))
  }

  function ParseDigits(ds: string): Option<nat> {
    if 0 < |ds| <= MaxStrDigits && AllDigits(ds) then Some(DigitsValue(ds)) else None
  }

  /** `int(tok)`: `None` where Python raises `ValueError`. */
  function ParseInt(tok: string): (r: Option<int>)
    ensures r.Some? <==> IsIntLiteral(tok)
    ensures r.Some? && tok[0] == '-' ==> r.value == -(DigitsValue(tok[1..]) as int)
    ensures r.Some? && tok[0] == '+' ==> r.value == DigitsValue(tok[1..])
    ensures r.Some? && tok[0] != '-' && tok[0] != '+' ==> r.value == DigitsValue(tok)
  {
    if |tok| == 0 then None
    else if tok[0] == '+' || tok[0] == '-' then
      match ParseDigits(tok[1..])
      case None => None
      case Some(v) =>
        var magnitude: int := v;
        Some(if tok[0] == '-' then -magnitude else magnitude)
    else
      match ParseDigits(tok)
      case None => None
      case Some(v) => Some(v)
  }

  function DigitChar(d: nat): (c: char)
    requires d < 10
    ensures IsDigit(c) && DigitValue(c) == d
  {
    ('0' as int + d) as char
  }

  /** `f"{n}"` for a natural number: its canonical decimal spelling. */
  function NatToString(n: nat): (s: string)
    ensures |s| > 0 && AllDigits(s)
    ensures DigitsValue(s) == n
    ensures s[0] == '0' ==> n == 0
  {
    if n < 10 then [DigitChar(n)]
    else
      var p := NatToString(n / 10);
      var s := p + [DigitChar(n % 10)];
      assert s[..|s| - 1] == p;
      s
  }

  /**
    Formatting a natural number and parsing it back gives the number, with
    either sign prefix, as long as `int()` accepts that many digits.
   */
  lemma ParseIntOfNatToString(n: nat)
    requires |NatToString(n)| <= MaxStrDigits
    ensures ParseInt(NatToString(n)) == Some(n)
    ensures ParseInt("+" + NatToString(n)) == Some(n)
    ensures ParseInt("-" + NatToString(n)) == Some(-(n as int))
  {
    var s := NatToString(n);
    assert ("+" + s)[1..] == s;
    assert ("-" + s)[1..] == s;
  }

  function SumLengths(xs: seq<string>): nat {
    if |xs| == 0 then 0 else |xs[0]| + SumLengths(xs[1..])
  }

  /** `sep.join(xs)`. */
  function Join(xs: seq<string>, sep: string): (r: string)
    ensures |xs| == 0 ==> r == ""
    ensures |xs| > 0 ==> |r| == SumLengths(xs) + (|xs| - 1) * |sep|
    ensures |xs| > 0 ==> r[..|xs[0]|] == xs[0]
  {
    if |xs| == 0 then ""
    else if |xs| == 1 then xs[0]
    else
      var tail := Join(xs[1..], sep);
      var r := xs[0] + sep + tail;
      assert r[..|xs[0]|] == xs[0];
      r
  }

  /** Appending a part adds the separator and the part at the end. */
  lemma {:induction false} JoinSnoc(xs: seq<string>, x: string, sep: string)
    requires |xs| > 0
    ensures Join(xs + [x], sep) == Join(xs, sep) + sep + x
    decreases |xs|
  {
    var ys := xs + [x];
    assert ys[0] == xs[0] && ys[1..] == xs[1..] + [x];
    if |xs| > 1 {
      JoinSnoc(xs[1..], x, sep);
    } else {
      assert ys[1..] == [x];
    }
  }

  /** Joining with a single blank is the inverse of splitting into words. */
  lemma {:induction false} JoinIsUnwords(ws: seq<string>)
    ensures Join(ws, " ") == Unwords(ws)
  {
    if |ws| > 1 {
      JoinIsUnwords(ws[1..]);
    }
  }
}

=== FILE: tables.dfy ===
/**
  The `Seat` and `Table` container of src/table.py. A table is an immutable
  value; each operation that mutates a table in place returns the new table.
 */
module Tables {
  import opened Results

  /** A seat: the occupant's name ("" when empty) and whether it is free. */
  datatype Seat = Seat(occupant: string, isfree: bool)

  /** A fresh `Seat()`: no occupant and free. */
  const EmptySeat := Seat("", true)

  /** A table: its name, the capacity it was built with, and its seats in order. */
  datatype Table = Table(name: string, capacity: int, seats: seq<Seat>)

  /** Number of seats `range(capacity)` produces: none for a negative capacity. */
  function SeatCount(capacity: int): nat {
    if capacity < 0 then 0 else capacity
  }

  /** Number of free seats in `seats`. */
  function CountFree(seats: seq<Seat>): (n: nat)
    ensures n <= |seats|
    ensures n == 0 <==> forall j :: 0 <= j < |seats| ==> !seats[j].isfree
    ensures n == |seats| <==> forall j :: 0 <= j < |seats| ==> seats[j].isfree
  {
    if |seats| == 0 then 0
    else (if seats[0].isfree then 1 else 0) + CountFree(seats[1..])
  }

  /** Every seat is free with no occupant. */
  ghost predicate AllEmpty(t: Table) {
    forall j :: 0 <= j < |t.seats| ==> t.seats[j] == EmptySeat
  }

  /**
    Seat bookkeeping agrees with the occupant: a seat is free exactly when its
    occupant is "". Every table the code builds starts this way, and seating
    non-empty names keeps it so.
   */
  ghost predicate Consistent(t: Table) {
    forall j :: 0 <= j < |t.seats| ==> (t.seats[j].isfree <==> t.seats[j].occupant == "")
  }

  /** `left_capacity()`: the number of free seats. */
  function LeftCapacity(t: Table): nat {
    CountFree(t.seats)
  }

  /** `Table(name, capacity, seats)`: the given seats, or `capacity` fresh ones when none are given. */
  function NewTable(name: string, capacity: int, seats: Option<seq<Seat>>): (t: Table)
    ensures t.name == name && t.capacity == capacity
    ensures seats.Some? ==> t.seats == seats.value
    ensures seats.None? ==> |t.seats| == SeatCount(capacity) && AllEmpty(t)
    ensures seats.None? ==> LeftCapacity(t) == SeatCount(capacity) && Consistent(t)
  {
    match seats
    case Some(given) => Table(name, capacity, given)
    case None => Table(name, capacity, seq(SeatCount(capacity), _ => EmptySeat))
  }

  /** `has_free_spot()`: some seat is free. */
  function HasFreeSpot(t: Table): (b: bool)
    ensures b <==> LeftCapacity(t) > 0
  {
    exists j :: 0 <= j < |t.seats| && t.seats[j].isfree
  }

  /** Seat `i` is the first free seat. */
  ghost predicate IsFirstFree(seats: seq<Seat>, i: int) {
    0 <= i < |seats| && seats[i].isfree && forall j :: 0 <= j < i ==> !seats[j].isfree
  }

  /** Index of the first free seat, if any. */
  function FirstFree(seats: seq<Seat>): (r: Option<nat>)
    ensures r.Some? ==> IsFirstFree(seats, r.value)
    ensures r.None? ==> forall j :: 0 <= j < |seats| ==> !seats[j].isfree
  {
    if |seats| == 0 then None
    else if seats[0].isfree then Some(0)
    else
      match FirstFree(seats[1..])
      case None => None
      case Some(i) => Some(i + 1)
  }

  /** Overwriting one seat changes the free count by that seat's change. */
  lemma {:induction false} CountFreeUpdate(seats: seq<Seat>, i: nat, s: Seat)
    requires i < |seats|
    ensures CountFree(seats[i := s])
         == CountFree(seats) - (if seats[i].isfree then 1 else 0) + (if s.isfree then 1 else 0)
  {
    if i > 0 {
      assert seats[i := s][1..] == seats[1..][i - 1 := s];
      CountFreeUpdate(seats[1..], i - 1, s);
    }
  }

  /**
    `assign_seat(name)`: writes `name` into the first free seat, marks it taken
    and answers true; answers false and changes nothing when no seat is free.
   */
  function AssignSeat(t: Table, name: string): (r: (Table, bool))
    ensures r.1 <==> HasFreeSpot(t)
    ensures !r.1 ==> r.0 == t
    ensures r.1 ==> exists i :: IsFirstFree(t.seats, i) && r.0.seats == t.seats[i := Seat(name, false)]
    ensures r.0.name == t.name && r.0.capacity == t.capacity && |r.0.seats| == |t.seats|
    ensures r.1 ==> LeftCapacity(r.0) == LeftCapacity(t) - 1
    ensures name != "" && Consistent(t) ==> Consistent(r.0)
  {
    match FirstFree(t.seats)
    case None => (t, false)
    case Some(i) =>
      CountFreeUpdate(t.seats, i, Seat(name, false));
      (t.(seats := t.seats[i := Seat(name, false)]), true)
  }

  /** A successful `assign_seat` adds exactly the seated name to `Taken`. */
  lemma AssignSeatTakes(t: Table, name: string)
    ensures AssignSeat(t, name).1 ==> Taken(AssignSeat(t, name).0.seats) == Taken(t.seats) + multiset{name}
  {
    var step := AssignSeat(t, name);
    if step.1 {
      var i :| IsFirstFree(t.seats, i) && step.0.seats == t.seats[i := Seat(name, false)];
      TakenFill(t.seats, i, name);
    }
  }

  /** `clear_assignments()`: every seat emptied and freed, the seat count kept. */
  function ClearAssignments(t: Table): (r: Table)
    ensures r.name == t.name && r.capacity == t.capacity && |r.seats| == |t.seats|
    ensures AllEmpty(r) && Consistent(r)
    ensures LeftCapacity(r) == |r.seats|
  {
    t.(seats := seq(|t.seats|, _ => EmptySeat))
  }

  /**
    `occupants()`: the filter `is not None` keeps every seat, so this is one
    entry per seat, empty occupants included.
   */
  function Occupants(t: Table): (r: seq<string>)
    ensures |r| == |t.seats|
    ensures forall j :: 0 <= j < |r| ==> r[j] == t.seats[j].occupant
    ensures (exists j :: 0 <= j < |t.seats| && t.seats[j].isfree && Consistent(t)) ==> "" in r
  {
    seq(|t.seats|, j requires 0 <= j < |t.seats| => t.seats[j].occupant)
  }

  /** The non-empty occupants, in seat order. */
  function AssignedOf(seats: seq<Seat>): (r: seq<string>)
    ensures |r| <= |seats|
    ensures forall p :: p in r <==> p != "" && exists j :: 0 <= j < |seats| && seats[j].occupant == p
  {
    if |seats| == 0 then []
    else
      var rest := AssignedOf(seats[1..]);
      assert forall j :: 1 <= j < |seats| ==> seats[j] == seats[1..][j - 1];
      (if seats[0].occupant != "" then [seats[0].occupant] else []) + rest
  }

  function AssignedNames(t: Table): seq<string> {
    AssignedOf(t.seats)
  }

  /** How many seats have a non-empty occupant. */
  function Occupancy(t: Table): nat {
    |AssignedOf(t.seats)|
  }

  /** Names held by taken (non-free) seats, with multiplicity. */
  function Taken(seats: seq<Seat>): multiset<string> {
    if |seats| == 0 then multiset{}
    else (if seats[0].isfree then multiset{} else multiset{seats[0].occupant}) + Taken(seats[1..])
  }

  /** A name in `Taken` sits in some taken seat. */
  lemma {:induction false} TakenMember(seats: seq<Seat>, p: string)
    requires p in Taken(seats)
    ensures exists j :: 0 <= j < |seats| && seats[j].occupant == p && !seats[j].isfree
  {
    if !(!seats[0].isfree && seats[0].occupant == p) {
      TakenMember(seats[1..], p);
      var j :| 0 <= j < |seats[1..]| && seats[1..][j].occupant == p && !seats[1..][j].isfree;
      assert seats[j + 1] == seats[1..][j];
    }
  }

  /** A name in a taken seat is in `Taken`. */
  lemma {:induction false} TakenHas(seats: seq<Seat>, j: nat)
    requires j < |seats| && !seats[j].isfree
    ensures seats[j].occupant in Taken(seats)
  {
    if j > 0 {
      assert seats[1..][j - 1] == seats[j];
      TakenHas(seats[1..], j - 1);
    }
  }

  /** Filling a free seat adds exactly that name to `Taken`. */
  lemma {:induction false} TakenFill(seats: seq<Seat>, i: nat, name: string)
    requires i < |seats| && seats[i].isfree
    ensures Taken(seats[i := Seat(name, false)]) == Taken(seats) + multiset{name}
  {
    if i > 0 {
      assert seats[i := Seat(name, false)][1..] == seats[1..][i - 1 := Seat(name, false)];
      TakenFill(seats[1..], i - 1, name);
    }
  }

  /** For a consistent table, occupied and free seats add up to all seats. */
  lemma {:induction false} OccupancyPlusLeft(seats: seq<Seat>)
    requires forall j :: 0 <= j < |seats| ==> (seats[j].isfree <==> seats[j].occupant == "")
    ensures |AssignedOf(seats)| + CountFree(seats) == |seats|
  {
    if |seats| > 0 {
      OccupancyPlusLeft(seats[1..]);
    }
  }

  /** The free-seat count after `assign_seat` and `clear_assignments`, in the table's own terms. */
  lemma AssignSeatKeepsSeatsAndLowersLeft(t: Table, name: string)
    requires name != "" && Consistent(t) && HasFreeSpot(t)
    ensures var t' := AssignSeat(t, name).0;
      && |t'.seats| == |t.seats|
      && Occupancy(t') == Occupancy(t) + 1
      && LeftCapacity(t') == LeftCapacity(t) - 1
  {
    var t' := AssignSeat(t, name).0;
    OccupancyPlusLeft(t.seats);
    OccupancyPlusLeft(t'.seats);
  }
}
